=== FILE: README.md ===
# Emergency dispatch record store

A Dafny model of the record store of the gdg-backend emergency-dispatch
service: the functions of `app/db/crud.py` that create and update incidents,
find the nearest available responder units and the nearest suitable
hospitals, dispatch a unit to an incident, keep the response records that
link the two, and compute the dashboard counters.

The MongoDB database is modelled as four collections (`Store.Db`): incidents,
responders, hospitals and responses. Each collection (`Tables.Table`) maps
ObjectIds to records and remembers the insertion order, which is the order
an unsorted scan yields. Every store function is a pure function from the
database (and its arguments) to the database afterwards and what the call
returned or raised (`Store.Outcome`). Writes made before an exception stay
in the database, as they do in the store.

Conventions:

- An ObjectId is 12 bytes. `ObjectId(text)` accepts exactly the 24-digit
  hexadecimal texts, in either case. `str(id)` writes lowercase digits
  (`ObjectIds`). A text that does not parse raises `InvalidId`.
- Fields a stored document may lack are `Option`s. `None` stands for both
  an absent field and a null, which the store's filters treat alike. The
  store functions write plain dictionaries and never apply the schema
  defaults.
- Timestamps are BSON milliseconds. Every clock reading is a parameter.
  `create_incident` reads the clock twice (`createdAt`, then `updatedAt`).
  A dispatch reads it for the incident write (`now`) and again when the
  response is filed (`filedAt`). Elsewhere the one reading is `now`.
- The id an insert generates is the parameter `newId`. An id already in
  use raises `DuplicateKey`.
- The geospatial searches receive the distance in metres of every record
  from the query point, as a map (`GeoNear`). A record missing from the map
  has no indexed location. Records at equal distance keep their scan order.
- `if vehicle_type:` and `if specialty:` skip a missing or empty text
  (`Records.Given`).
- BSON integers have at most 8 bytes (`Store.FitsInt64`). The driver
  refuses to encode any other integer it is asked to send, raising
  `IntOverflow`, and nothing reaches the server. This applies to a bed
  count, a `beds_required`, a `max_results`, a `limit` and a response ETA.
- Negative `max_results` is refused by the driver's `to_list`
  (`NegativeLength`). Then an integer beyond 8 bytes in the pipeline is
  refused by the encoder (`IntOverflow`). Then a negative radius is refused
  by `$geoNear` (`NegativeMaxDistance`). Then a zero `$limit` is refused by
  the server (`LimitNotPositive`).

The agents' instructions ask for more than the store provides. The
dispatch agent is told to match units by ETA, skills and load, to reserve
units, and to widen the radius when none is near
(app/agents/dispatch_agent.py:9-10). The coordinating agent is told to
reserve units and track their status (app/agents/agent.py:22). None of this
is in the store, and this model follows the store. Incidents are `active`
or not. A dispatched unit becomes `en_route`. The searches rank by distance
alone, within one radius. The dispatch checks neither the unit's status nor
whether the incident exists.

## Model

| member | source | states |
|---|---|---|
| ObjectIds.ParseOid | app/db/crud.py:51-53 | `ObjectId(text)` succeeds exactly on 24-character texts of hexadecimal digits, upper or lower case, and byte `i` of the id is the value of digits `2i` and `2i+1`, high digit first |
| ObjectIds.FormatOid | app/db/crud.py:49 | `str(inserted_id)` is 24 lowercase hexadecimal digits |
| ObjectIds.ParseFormatOid | app/db/crud.py:49 | the text an insert returns parses back to the id that was inserted |
| ObjectIds.FormatParseOid | app/db/crud.py:51-53 | a lowercase id text is exactly the text of the id it parses to |
| ObjectIds.DecodeEncodeHex | app/db/crud.py:49 | decoding the hex text of a byte string gives the byte string back |
| ObjectIds.EncodeDecodeHex | app/db/crud.py:51-53 | a lowercase hex text is the encoding of the bytes it decodes to |
| ObjectIds.DecodeHex | app/db/crud.py:51-53 | hex decoding succeeds iff the text has even length and only hex digits, giving half as many bytes, each the value of its digit pair |
| ObjectIds.EncodeHex | app/db/crud.py:49 | each byte is written as two lowercase digits, high digit first |
| ObjectIds.ParseOidIgnoresCase | app/db/crud.py:51-53 | an id text parses to the same id as its lowercase form, so the case of the digits never matters |
| Tables.Find | app/db/crud.py:53 | `find_one` by id returns the record stored under the id, and nothing exactly when none is |
| Store.ToOid | app/db/crud.py:102 | a malformed id text raises `InvalidId` carrying that text; a well-formed one yields its id |
| Tables.Insert | app/db/crud.py:48 | `insert_one` adds exactly the new record under the new id and scans it last |
| Tables.Update | app/db/crud.py:101-104 | `update_one` replaces only the record the id names; a missing id changes nothing |
| Records.ApplyPatch | app/db/crud.py:99-104 | each field the patch gives takes the given value, each field it omits keeps its stored value, `created_at` is kept and `updated_at` becomes now |
| Records.EmptyPatchOnlyTouchesUpdatedAt | app/db/crud.py:100-104 | an update with no fields still refreshes `updated_at` and nothing else |
| Records.ApplyPatchIdempotent | app/db/crud.py:100-104 | the same patch applied twice at one instant equals applying it once |
| Incidents.Stamped | app/db/crud.py:46-47 | `created_at` and `updated_at` become the two clock readings taken in turn; every other field is as given |
| Incidents.CreateIncident | app/db/crud.py:45-49 | the new incident is stored stamped under a fresh id whose text is returned and is scanned last; other records are untouched; a reused id raises |
| Incidents.GetIncident | app/db/crud.py:51-53 | a malformed id raises; otherwise the stored incident is returned iff the id is stored |
| Incidents.UpdateIncident | app/db/crud.py:99-105 | only the named incident is patched, other collections untouched, and the id text is returned even when nothing matched |
| Incidents.CreatedIncidentIsFound | app/db/crud.py:45-53 | looking up the text `create_incident` returned finds the stored incident |
| Incidents.UpdateCreatedIncident | app/db/crud.py:99-105 | updating through the returned text patches exactly the new incident |
| Incidents.UpdateIncidentIdempotent | app/db/crud.py:99-105 | repeating an update at the same instant changes nothing further |
| IncidentQueries.LatestIn | app/db/crud.py:58-61 | the scan finds an incident iff one lies in the window, and it has the greatest `created_at` among those |
| IncidentQueries.GetLatestIncident | app/db/crud.py:55-62 | returns an incident iff one was created no earlier than five minutes before now (later timestamps included, as `$gte` has no upper bound), and it is the newest such |
| IncidentQueries.FreshIncidentIsLatest | app/db/crud.py:55-62 | an incident created now, with every other one older, is the one returned |
| IncidentQueries.ActiveIn | app/db/crud.py:109 | the scan keeps exactly the active incidents |
| IncidentQueries.GetActiveIncidents | app/db/crud.py:107-109 | a negative limit raises, and so does one beyond 8 bytes; otherwise at most `limit` incidents, all active, each listed once, and every active incident when the page is not full |
| IncidentQueries.ActiveInDistinct | app/db/crud.py:109 | a scan over distinct ids lists each active incident once |
| IncidentQueries.ActivePage | app/db/crud.py:107-109 | a non-negative limit yields a page iff it fits in 8 bytes; a page never holds more incidents than are active, and a page with room to spare holds every active one |
| IncidentQueries.DefaultPageIsComplete | app/db/crud.py:107-109 | while fewer than 50 incidents are active, the default page holds exactly the active incidents |
| IncidentQueries.CountActive | app/db/crud.py:248 | `count_documents({"status": "active"})` is at most the number of incidents, zero iff none is active, and all of them iff every one is active |
| IncidentQueries.CountActiveKeepsStatus | app/db/crud.py:248 | rewriting an incident without changing its status keeps the active count |
| GeoNear.SortByDistance | app/db/crud.py:191 | the result is nearest first and a permutation of the input |
| GeoNear.SortStage | app/db/crud.py:191 | `$sort` on distance yields a permutation of its input (same multiset of records), nearest first, and keeps ids distinct |
| GeoNear.PermutationKeepsDistinct | app/db/crud.py:191 | a permutation of a list with distinct ids has distinct ids |
| GeoNear.WithinDistance | app/db/crud.py:131 | the `maxDistance` filter keeps exactly the scanned records within the maximum distance (inclusive), each with its distance, and each once when the scan has distinct ids |
| GeoNear.GeoNearStage | app/db/crud.py:127-134 | `$geoNear` yields exactly the records within the maximum distance (inclusive), each once, nearest first, with their distances |
| GeoNear.MatchStage | app/db/crud.py:135 | `$match` keeps exactly the records satisfying the conditions: its output is a subsequence of its input (order kept, no record added or repeated), and sortedness and distinct ids carry over |
| GeoNear.LimitStage | app/db/crud.py:136 | `$limit` keeps the first `n` records, so distinct ids stay distinct |
| GeoNear.LimitKeepsNearest | app/db/crud.py:136 | on a nearest-first list, a record the limit drops is at least as far as every record kept, and is dropped only when the limit is reached |
| Responders.EtaMinutes | app/db/crud.py:144-147 | the ETA is the whole minutes needed at 40 km/h, rounded down |
| Responders.EtaMonotone | app/db/crud.py:147 | a farther unit never gets a smaller ETA |
| Responders.EtaWithinRadius | app/db/crud.py:131-147 | a unit within the radius has an ETA of at most 1.5 minutes per km of radius |
| Responders.ResponderHits | app/db/crud.py:126-139 | the pipeline yields at most `max_results` units within the radius that meet the status and type conditions, nearest first, each unit once, with its stored document and distance |
| Responders.Annotate | app/db/crud.py:142-148 | the annotation keeps the hits' order and length, adding `distance_km` and the ETA to each; nearest-first order and distinct ids carry over |
| Responders.AnnotatedHits | app/db/crud.py:126-148 | each annotated unit is stored, within the radius, qualifies, carries its distance and ETA, and appears once, nearest first |
| Responders.ToResponderMatch | app/db/crud.py:143-148 | each hit is annotated with `distance_km` = metres / 1000 and its ETA |
| Responders.NearbyResponders | app/db/crud.py:112-150 | the refused arguments, including a `max_results` beyond 8 bytes; otherwise at most `max_results` units, each within the radius, available when asked, of the asked vehicle type, each unit once, nearest first, with distance and ETA |
| Responders.NearbyRespondersNearestFirst | app/db/crud.py:126-139 | a qualifying unit within the radius is left out only when the result is full of units no farther away |
| Responders.HitsNearestFirst | app/db/crud.py:126-139 | the pipeline drops a qualifying unit only when `max_results` nearer-or-equal units fill it |
| Responders.DefaultSearchSucceeds | app/db/crud.py:112-115 | the search with its default arguments never raises |
| Responders.UpdateResponderStatus | app/db/crud.py:157-163 | sets the named unit's status to any text, touches nothing else, returns the unit as stored or nothing |
| Hospitals.HospitalHits | app/db/crud.py:181-195 | the pipeline yields at most `max_results` qualifying hospitals within the radius, each once, nearest first |
| Hospitals.Annotate | app/db/crud.py:198-201 | the annotation keeps the hits' order and length, adding `distance_km` to each; nearest-first order and distinct ids carry over |
| Hospitals.AnnotatedHits | app/db/crud.py:181-201 | each annotated hospital is stored, within the radius, qualifies, carries its distance, and appears once, nearest first |
| Hospitals.ToHospitalMatch | app/db/crud.py:198-201 | each hit is annotated with `distance_km` = metres / 1000 |
| Hospitals.NearbyHospitals | app/db/crud.py:170-203 | the refused arguments, including a `beds_required` or `max_results` beyond 8 bytes; otherwise at most `max_results` operational hospitals with enough beds and the asked specialty, within the radius, each once, nearest first |
| Hospitals.HitsNearestFirst | app/db/crud.py:181-195 | the pipeline drops a qualifying hospital only when `max_results` nearer-or-equal hospitals fill it |
| Hospitals.NearbyHospitalsNearestFirst | app/db/crud.py:181-195 | a qualifying hospital within the radius is left out only when the result is full of hospitals no farther away |
| Hospitals.HospitalWithoutStatusNeverFound | app/db/crud.py:177 | every hospital found has a status field, so documents stored without one are never found |
| Hospitals.DefaultSearchSucceeds | app/db/crud.py:170-174 | the search with its default arguments never raises |
| Hospitals.UpdateHospitalBeds | app/db/crud.py:210-216 | sets the named hospital's bed count to any 8-byte integer, touches nothing else, returns the hospital as stored or nothing; a count beyond 8 bytes raises and writes nothing |
| Hospitals.BedsBelowRequiredNeverFound | app/db/crud.py:177-192 | after its beds are set below what a search requires, the hospital is never among that search's results; a count beyond 8 bytes leaves the database as it was |
| Hospitals.RestockedHospitalIsFound | app/db/crud.py:177-216 | after its beds are set to what a search requires, an operational hospital in range with the specialty is found with its new count, unless the result is full of hospitals no farther away; a count beyond 8 bytes leaves the database as it was |
| Responses.CreateResponse | app/db/crud.py:223-227 | stores the response with `created_at` = now under a fresh id and returns it as stored; an ETA beyond 8 bytes raises before a reused id would, and either error writes nothing |
| Responses.UpdateResponseStatus | app/db/crud.py:237-243 | sets the named response's status, touches nothing else, returns it as stored or nothing |
| Responses.ResponsesFor | app/db/crud.py:235 | the scan keeps exactly the responses whose `incident_id` equals the text, each once when the scan has distinct ids |
| Responses.ResponsesByIncident | app/db/crud.py:233-235 | every response filed against the incident text and no other, each once |
| Responses.ResponsesAfterCreate | app/db/crud.py:223-235 | filing a response appends it to its incident's list and leaves every other list as it was; a refused filing changes no list |
| Responses.ResponsesAfterStatusUpdate | app/db/crud.py:233-243 | a status update keeps every incident's list of responses in order, with only the updated response's status changed |
| Responses.ResponsesForStatus | app/db/crud.py:235 | the filter over a table where one status changed lists the same responses, that one with its new status |
| Responses.ResponsesForFrame | app/db/crud.py:235 | the filter reads only the records it scans |
| Dispatch.DispatchedResponse | app/db/crud.py:274-278 | the filed response carries both id texts and status `dispatched`, and no ETA and no notes |
| Dispatch.Assigned | app/db/crud.py:264 | the incident gets the unit id and a fresh `updated_at`, nothing else changes |
| Dispatch.AssignResponderToIncident | app/db/crud.py:259-279 | a malformed incident id raises with no write; a malformed unit id raises after the incident write; otherwise returns the new `dispatched` response, stamped with the later clock reading |
| Dispatch.AssignmentEffects | app/db/crud.py:259-279 | after a dispatch the incident names the unit, the unit is `en_route` whatever it was, exactly one response is added and scanned last, and nothing else changes, scan orders included |
| Dispatch.AssignmentFilesOneResponse | app/db/crud.py:273-279 | the incident's response list gains exactly the new response, at its end |
| Dispatch.BadResponderIdLeavesIncidentWritten | app/db/crud.py:262-271 | a malformed unit id leaves the incident naming it while units and responses are untouched |
| Dispatch.SameUnitTwice | app/db/crud.py:259-279 | one unit can be dispatched to two incidents; both succeed and both name it |
| Records.AvailableNotBusy | app/db/crud.py:249-250 | the available and busy status lists share no status, so no unit is counted in both columns |
| Dashboard.Count | app/db/crud.py:249-250 | `count_documents` with `$in` is at most the number of units, zero iff no unit has one of the statuses, and all of them iff every unit does |
| Dashboard.GetDashboardStats | app/db/crud.py:246-257 | busy counts `en_route` plus `busy`, total is available plus busy, so total plus the units in any other state is the number of units |
| Dashboard.CountSplit | app/db/crud.py:250 | counting `$in` two disjoint status lists is the sum of the counts |
| Dashboard.CountComplement | app/db/crud.py:256 | every unit is counted inside a status list or outside it |
| Dashboard.CountAfterChange | app/db/crud.py:249-250 | changing one unit moves a status count by its membership before and after |
| Dashboard.DispatchCounts | app/db/crud.py:268-271 | a dispatch moves the unit out of its column into busy and leaves the active-incident count |
| Dashboard.DispatchOfAvailableUnit | app/db/crud.py:246-257 | dispatching an available unit moves one from available to busy; total and active count stay |
| Dashboard.DispatchOfUncountedUnit | app/db/crud.py:246-257 | dispatching an offline or status-less unit adds one to busy and to the total |
| Dashboard.TakingUnitOffline | app/db/crud.py:249-256 | taking an available unit offline lowers available and total by one, busy unchanged |
| IncidentDefaults.WithDefaults | app/schemas/incident.py:14-15 | a missing status becomes `active`, a missing priority `P3`, given values are kept |
| IncidentDefaults.CreateIncidentWithDefaults | app/db/crud.py:36-37 | the documented creation: the stored incident always has a status and a priority |
| IncidentDefaults.CreatedWithoutStatusIsNeverActive | app/db/crud.py:45-49 | as written, an incident created without a status is never listed active and leaves the active count unchanged |
| IncidentDefaults.DefaultedIncidentIsActive | app/db/crud.py:36-49 | with the defaults, such an incident raises the active count by one and is listed when the page has room |

## Left out

- The agents, tool wrappers, geocoding, authentication, HTTP routes and the seeding script. They call the store but are not part of it.
- User records (`get_user`, `create_user`, `get_user_by_email`). They are not part of the dispatch store.
- `create_responder`, `create_hospital`, `get_responder`, `get_hospital`, `get_response`. These are plain inserts and lookups. The same `Tables.Insert` and `Tables.Find` cover them, and no property depends on them.
- The spherical distance and the 2dsphere index. Each search takes the distances as an input. Floating-point geometry is outside the model.
- The event loop and concurrency. Each call is one atomic step, although the store runs the three dispatch writes separately and another caller could interleave.
- Connection and server failures other than the argument errors above.
- Clock readings are taken to lie within the BSON datetime range. The encoder's limit on them is not modelled, because every reading is a parameter.
- Whitespace inside id texts, which the hex decoder of some driver versions skips.
- Incidents.UpdateIncident: update keys outside the incident fields, including a caller-supplied `created_at`, are not modelled. The patch covers exactly the documented fields.
- Responders.EtaMinutes: computed exactly on whole metres as ⌊metres·60/40000⌋. The source computes it in floating point, which can differ by one minute when the exact value is a whole number.
- Responders.NearbyResponders: distances are whole metres, so a fractional distance is not represented.
- IncidentQueries.GetActiveIncidents: which incidents fill a full page is up to the store. The model takes the first ones scanned, and its contract promises completeness only when the page is not full.
- IncidentQueries.GetLatestIncident: among incidents created at the same instant, the store may return any. The model returns the first scanned, and its contract does not say which one.

## Findings

| source | as written | input that shows it | evidently intended | confidence | as-written member | corrected member |
|---|---|---|---|---|---|---|
| app/db/crud.py:45-49 | stores the caller's dictionary as given, so no `status` or `priority` default is filled in, although the docstring (lines 36-37) and the schema (app/schemas/incident.py:14-15) say status defaults to `active` and priority to `P3` | an incident dictionary without a `status` key: `get_active_incidents` never returns it and `active_incidents` does not count it | a missing status is stored as `active` and a missing priority as `P3` | medium, not executed | IncidentDefaults.CreatedWithoutStatusIsNeverActive | IncidentDefaults.CreateIncidentWithDefaults |

=== FILE: dashboard.dfy ===
/** The dashboard counters, and how the writes move them. */
module Dashboard {
  import opened Wrappers
  import opened ObjectIds
  import opened Records
  import opened Tables
  import opened Store
  import opened IncidentQueries
  import Responders
  import Dispatch

  datatype DashboardStats = DashboardStats(
    activeIncidents: nat,
    availableResponders: nat,
    busyResponders: nat,
    totalResponders: nat)

  /** The units whose status is one of `statuses`; a unit without a status
      field holds `None`. */
  function Holding(rows: map<Oid, Responder>, statuses: set<Option<string>>): (ids: set<Oid>)
    ensures forall id :: id in ids <==> id in rows && rows[id].status in statuses
  {
    set id | id in rows && rows[id].status in statuses
  }

  /** `count_documents({"status": {"$in": statuses}})`. */
  function Count(rows: map<Oid, Responder>, statuses: set<Option<string>>): (c: nat)
    ensures c <= |rows|
    ensures c == 0 <==> forall id | id in rows :: rows[id].status !in statuses
    ensures c == |rows| <==> forall id | id in rows :: rows[id].status in statuses
  {
    var held := Holding(rows, statuses);
    SubsetCard(held, rows.Keys);
    assert |held| == 0 ==> forall id | id in rows :: rows[id].status !in statuses by {
      if |held| == 0 { assert held == {}; }
    }
    assert |rows.Keys| == |rows|;
    assert (forall id | id in rows :: rows[id].status in statuses) ==> held == rows.Keys;
    |held|
  }

  /** Units counted neither available nor busy: `offline`, any other text,
      or no status at all. */
  function CountOther(rows: map<Oid, Responder>): nat {
    |rows.Keys - Holding(rows, AvailableStatuses + BusyStatuses)|
  }

  /** `get_dashboard_stats`: the busy count is the en-route count plus the
      busy count, and the total is available plus busy, so the total leaves
      out exactly the units in any other state. */
  function GetDashboardStats(db: Db): (s: DashboardStats)
    ensures s.activeIncidents == CountActive(db.incidents.rows)
    ensures s.availableResponders == Count(db.responders.rows, {Some(ResponderAvailable)})
    ensures s.busyResponders ==
      Count(db.responders.rows, {Some(ResponderEnRoute)}) + Count(db.responders.rows, {Some(ResponderBusy)})
    ensures s.totalResponders == s.availableResponders + s.busyResponders
    ensures s.totalResponders + CountOther(db.responders.rows) == |db.responders.rows|
  {
    var rows := db.responders.rows;
    CountSplit(rows, {Some(ResponderEnRoute)}, {Some(ResponderBusy)});
    assert {Some(ResponderEnRoute)} + {Some(ResponderBusy)} == BusyStatuses;
    CountSplit(rows, AvailableStatuses, BusyStatuses);
    CountComplement(rows, AvailableStatuses + BusyStatuses);
    var available := Count(rows, AvailableStatuses);
    var busy := Count(rows, BusyStatuses);
    DashboardStats(CountActive(db.incidents.rows), available, busy, available + busy)
  }

  /** The statistics in terms of the two status columns. */
  lemma StatsColumns(db: Db)
    ensures var s := GetDashboardStats(db);
      && s.availableResponders == Count(db.responders.rows, AvailableStatuses)
      && s.busyResponders == Count(db.responders.rows, BusyStatuses)
      && s.totalResponders == s.availableResponders + s.busyResponders
  {
    var rows := db.responders.rows;
    CountSplit(rows, {Some(ResponderEnRoute)}, {Some(ResponderBusy)});
    assert {Some(ResponderEnRoute)} + {Some(ResponderBusy)} == BusyStatuses;
  }

  /** Counting two disjoint status sets together is counting each. */
  lemma CountSplit(rows: map<Oid, Responder>, a: set<Option<string>>, b: set<Option<string>>)
    requires a !! b
    ensures Count(rows, a + b) == Count(rows, a) + Count(rows, b)
  {
    var sa, sb := Holding(rows, a), Holding(rows, b);
    assert sa !! sb;
    assert Holding(rows, a + b) == sa + sb;
  }

  /** Every unit is counted in a status set or outside it. */
  lemma CountComplement(rows: map<Oid, Responder>, a: set<Option<string>>)
    ensures Count(rows, a) + |rows.Keys - Holding(rows, a)| == |rows|
  {
    var inside := Holding(rows, a);
    var outside := rows.Keys - inside;
    assert inside !! outside;
    assert inside + outside == rows.Keys;
  }

  /** How a count moves when one unit changes. */
  lemma CountAfterChange(rows: map<Oid, Responder>, rid: Oid, after: Responder, statuses: set<Option<string>>)
    requires rid in rows
    ensures Count(rows[rid := after], statuses) + (if rows[rid].status in statuses then 1 else 0)
         == Count(rows, statuses) + (if after.status in statuses then 1 else 0)
  {
    var s, s' := Holding(rows, statuses), Holding(rows[rid := after], statuses);
    assert s - {rid} == s' - {rid};
    SizeWithout(s, rid);
    SizeWithout(s', rid);
  }

  lemma SizeWithout(s: set<Oid>, x: Oid)
    ensures |s| == |s - {x}| + (if x in s then 1 else 0)
  {
    if x in s {
      assert s == (s - {x}) + {x};
    } else {
      assert s == s - {x};
    }
  }

  /** Dispatching an available unit moves it from the available count to the
      busy count; the total and the active-incident count stay. */
  lemma DispatchOfAvailableUnit(db: Db, incidentId: string, responderId: string, now: Timestamp, filedAt: Timestamp, newId: Oid)
    requires ParseOid(incidentId).Some? && ParseOid(responderId).Some?
    requires newId !in db.responses.rows
    requires ParseOid(responderId).value in db.responders.rows
    requires IsAvailable(db.responders.rows[ParseOid(responderId).value])
    ensures var before := GetDashboardStats(db);
      var after := GetDashboardStats(Dispatch.AssignResponderToIncident(db, incidentId, responderId, now, filedAt, newId).db);
      && after.availableResponders + 1 == before.availableResponders
      && after.busyResponders == before.busyResponders + 1
      && after.totalResponders == before.totalResponders
      && after.activeIncidents == before.activeIncidents
  {
    AvailableNotBusy(db.responders.rows[ParseOid(responderId).value]);
    var after := Dispatch.AssignResponderToIncident(db, incidentId, responderId, now, filedAt, newId).db;
    StatsColumns(db);
    StatsColumns(after);
    DispatchCounts(db, incidentId, responderId, now, filedAt, newId);
  }

  /** The dispatch does not look at the unit's status: dispatching a unit
      that was counted in neither column (say `offline`) adds one to the
      busy count and to the total. */
  lemma DispatchOfUncountedUnit(db: Db, incidentId: string, responderId: string, now: Timestamp, filedAt: Timestamp, newId: Oid)
    requires ParseOid(incidentId).Some? && ParseOid(responderId).Some?
    requires newId !in db.responses.rows
    requires ParseOid(responderId).value in db.responders.rows
    requires !IsAvailable(db.responders.rows[ParseOid(responderId).value])
    requires !IsBusy(db.responders.rows[ParseOid(responderId).value])
    ensures var before := GetDashboardStats(db);
      var after := GetDashboardStats(Dispatch.AssignResponderToIncident(db, incidentId, responderId, now, filedAt, newId).db);
      && after.availableResponders == before.availableResponders
      && after.busyResponders == before.busyResponders + 1
      && after.totalResponders == before.totalResponders + 1
  {
    var after := Dispatch.AssignResponderToIncident(db, incidentId, responderId, now, filedAt, newId).db;
    StatsColumns(db);
    StatsColumns(after);
    DispatchCounts(db, incidentId, responderId, now, filedAt, newId);
  }

  lemma DispatchCounts(db: Db, incidentId: string, responderId: string, now: Timestamp, filedAt: Timestamp, newId: Oid)
    requires ParseOid(incidentId).Some? && ParseOid(responderId).Some?
    requires newId !in db.responses.rows
    requires ParseOid(responderId).value in db.responders.rows
    ensures var rid := ParseOid(responderId).value;
      var rows := db.responders.rows;
      var after := Dispatch.AssignResponderToIncident(db, incidentId, responderId, now, filedAt, newId).db;
      && Count(after.responders.rows, AvailableStatuses) + (if IsAvailable(rows[rid]) then 1 else 0)
         == Count(rows, AvailableStatuses)
      && Count(after.responders.rows, BusyStatuses) + (if IsBusy(rows[rid]) then 1 else 0)
         == Count(rows, BusyStatuses) + 1
      && CountActive(after.incidents.rows) == CountActive(db.incidents.rows)
  {
    var rid := ParseOid(responderId).value;
    var iid := ParseOid(incidentId).value;
    Dispatch.AssignmentEffects(db, incidentId, responderId, now, filedAt, newId);
    EnRouteCounts(db.responders.rows, rid);
    if iid in db.incidents.rows {
      CountActiveKeepsStatus(db.incidents.rows, iid, Dispatch.Assigned(db.incidents.rows[iid], responderId, now));
    }
  }

  /** Marking one unit `en_route` takes it out of its column and puts it in
      the busy one. */
  lemma EnRouteCounts(rows: map<Oid, Responder>, rid: Oid)
    requires rid in rows
    ensures var rows' := rows[rid := rows[rid].(status := Some(ResponderEnRoute))];
      && Count(rows', AvailableStatuses) + (if IsAvailable(rows[rid]) then 1 else 0) == Count(rows, AvailableStatuses)
      && Count(rows', BusyStatuses) + (if IsBusy(rows[rid]) then 1 else 0) == Count(rows, BusyStatuses) + 1
  {
    var enRoute := rows[rid].(status := Some(ResponderEnRoute));
    CountAfterChange(rows, rid, enRoute, AvailableStatuses);
    CountAfterChange(rows, rid, enRoute, BusyStatuses);
  }

  /** Taking an available unit offline removes it from the available count
      and from the total, and leaves the busy count. */
  lemma TakingUnitOffline(db: Db, responderId: string)
    requires ParseOid(responderId).Some?
    requires ParseOid(responderId).value in db.responders.rows
    requires IsAvailable(db.responders.rows[ParseOid(responderId).value])
    ensures var before := GetDashboardStats(db);
      var after := GetDashboardStats(Responders.UpdateResponderStatus(db, responderId, "offline").db);
      && after.availableResponders + 1 == before.availableResponders
      && after.busyResponders == before.busyResponders
      && after.totalResponders + 1 == before.totalResponders
  {
    var rid := ParseOid(responderId).value;
    var rows := db.responders.rows;
    var offline := rows[rid].(status := Some("offline"));
    assert !IsAvailable(offline) && !IsBusy(offline) by {
      assert "offline"[0] !in {ResponderAvailable[0], ResponderEnRoute[0], ResponderBusy[0]};
    }
    AvailableNotBusy(rows[rid]);
    var after := Responders.UpdateResponderStatus(db, responderId, "offline").db;
    assert after.responders.rows == rows[rid := offline];
    CountAfterChange(rows, rid, offline, AvailableStatuses);
    CountAfterChange(rows, rid, offline, BusyStatuses);
  }
}

=== FILE: dispatch.dfy ===
/** Dispatching a responder unit to an incident. */
module Dispatch {
  import opened Wrappers
  import opened ObjectIds
  import opened Records
  import opened Tables
  import opened Store
  import opened Responses

  /** The response a dispatch files: no ETA, no notes, status `dispatched`,
      and the two ids as the caller wrote them. */
  function DispatchedResponse(incidentId: string, responderId: string, now: Timestamp): (r: Response)
    ensures r.incidentId == incidentId && r.responderId == responderId
    ensures r.status == Some(ResponseDispatched) && r.createdAt == now
    ensures r.eta == None && r.notes == None
  {
    Response(incidentId, responderId, None, Some(ResponseDispatched), now, None)
  }

  /** The incident fields a dispatch writes. */
  function Assigned(inc: Incident, responderId: string, now: Timestamp): (r: Incident)
    ensures r.assignedResponderId == Some(responderId) && r.updatedAt == now
    ensures r.(assignedResponderId := inc.assignedResponderId, updatedAt := inc.updatedAt) == inc
  {
    inc.(assignedResponderId := Some(responderId), updatedAt := now)
  }

  /** `assign_responder_to_incident`: three writes in sequence, none of them
      conditional on the current state — record the unit on the incident,
      mark the unit `en_route`, file a `dispatched` response. Each id text is
      converted just before its write, so a malformed responder id raises
      only after the incident has been written. Neither id needs to name an
      existing record. The clock is read twice: `now` stamps the incident
      write and `filedAt` the response, which is created later. */
  function AssignResponderToIncident(db: Db, incidentId: string, responderId: string,
                                     now: Timestamp, filedAt: Timestamp, newId: Oid): (o: Outcome<Stored<Response>>)
    ensures ParseOid(incidentId).None? ==> o == Outcome(db, Err(InvalidId(incidentId)))
    ensures ParseOid(incidentId).Some? && ParseOid(responderId).None? ==>
      o.result == Err(InvalidId(responderId))
    ensures o.result.Ok? <==>
      ParseOid(incidentId).Some? && ParseOid(responderId).Some? && newId !in db.responses.rows
    ensures o.result.Ok? ==>
      o.result.value == Stored(newId, DispatchedResponse(incidentId, responderId, filedAt))
    ensures o.db.hospitals == db.hospitals
  {
    match ToOid(incidentId)
    case Err(e) => Outcome(db, Err(e))
    case Ok(iid) =>
      var incidents := Update(db.incidents, iid, (inc: Incident) => Assigned(inc, responderId, now));
      var db1 := db.(incidents := incidents);
      match ToOid(responderId)
      case Err(e) => Outcome(db1, Err(e))
      case Ok(rid) =>
        var responders := Update(db1.responders, rid, (r: Responder) => r.(status := Some(ResponderEnRoute)));
        CreateResponse(db1.(responders := responders), DispatchedResponse(incidentId, responderId, filedAt), filedAt, newId)
  }

  /** After a successful dispatch the incident records the unit, the unit is
      `en_route` whatever its status was before, exactly one response is
      added, and no other record changes. */
  lemma AssignmentEffects(db: Db, incidentId: string, responderId: string, now: Timestamp, filedAt: Timestamp, newId: Oid)
    requires ParseOid(incidentId).Some? && ParseOid(responderId).Some?
    requires newId !in db.responses.rows
    ensures var o := AssignResponderToIncident(db, incidentId, responderId, now, filedAt, newId);
      var iid, rid := ParseOid(incidentId).value, ParseOid(responderId).value;
      && o.result.Ok?
      && (iid in db.incidents.rows ==>
            o.db.incidents.rows == db.incidents.rows[iid := Assigned(db.incidents.rows[iid], responderId, now)])
      && (iid !in db.incidents.rows ==> o.db.incidents == db.incidents)
      && (rid in db.responders.rows ==>
            o.db.responders.rows == db.responders.rows[rid := db.responders.rows[rid].(status := Some(ResponderEnRoute))])
      && (rid !in db.responders.rows ==> o.db.responders == db.responders)
      && o.db.responses.rows == db.responses.rows[newId := DispatchedResponse(incidentId, responderId, filedAt)]
      && o.db.hospitals == db.hospitals
      && o.db.incidents.order == db.incidents.order
      && o.db.responders.order == db.responders.order
      && o.db.responses.order == db.responses.order + [newId]
  {
  }

  /** The incident's response list gains exactly the new `dispatched`
      response, at its end. */
  lemma AssignmentFilesOneResponse(db: Db, incidentId: string, responderId: string, now: Timestamp, filedAt: Timestamp, newId: Oid)
    requires ParseOid(incidentId).Some? && ParseOid(responderId).Some?
    requires newId !in db.responses.rows
    ensures var o := AssignResponderToIncident(db, incidentId, responderId, now, filedAt, newId);
      ResponsesByIncident(o.db, incidentId) ==
        ResponsesByIncident(db, incidentId) + [Stored(newId, DispatchedResponse(incidentId, responderId, filedAt))]
  {
    var iid, rid := ParseOid(incidentId).value, ParseOid(responderId).value;
    var incidents := Update(db.incidents, iid, (inc: Incident) => Assigned(inc, responderId, now));
    var db1 := db.(incidents := incidents);
    var db2 := db1.(responders := Update(db1.responders, rid, (r: Responder) => r.(status := Some(ResponderEnRoute))));
    assert db2.responses == db.responses;
    ResponsesAfterCreate(db2, DispatchedResponse(incidentId, responderId, filedAt), filedAt, newId, incidentId);
  }

  /** A malformed responder id leaves the incident pointing at it: the
      incident write has already happened, the unit and the responses are
      untouched. */
  lemma BadResponderIdLeavesIncidentWritten(db: Db, incidentId: string, responderId: string,
                                            now: Timestamp, filedAt: Timestamp, newId: Oid)
    requires ParseOid(incidentId).Some? && ParseOid(incidentId).value in db.incidents.rows
    requires ParseOid(responderId).None?
    ensures var o := AssignResponderToIncident(db, incidentId, responderId, now, filedAt, newId);
      var iid := ParseOid(incidentId).value;
      && o.result == Err(InvalidId(responderId))
      && o.db.incidents.rows[iid].assignedResponderId == Some(responderId)
      && o.db.responders == db.responders
      && o.db.responses == db.responses
  {
  }

  /** Nothing stops one unit from being dispatched to two incidents: both
      dispatches succeed and both incidents name the unit. */
  lemma SameUnitTwice(db: Db, first: string, second: string, responderId: string,
                      now: Timestamp, filedAt: Timestamp, id1: Oid, id2: Oid)
    requires ParseOid(first).Some? && ParseOid(second).Some? && ParseOid(responderId).Some?
    requires ParseOid(first).value in db.incidents.rows && ParseOid(second).value in db.incidents.rows
    requires id1 !in db.responses.rows && id2 !in db.responses.rows && id1 != id2
    ensures var o1 := AssignResponderToIncident(db, first, responderId, now, filedAt, id1);
      var o2 := AssignResponderToIncident(o1.db, second, responderId, now, filedAt, id2);
      && o1.result.Ok? && o2.result.Ok?
      && o2.db.incidents.rows[ParseOid(first).value].assignedResponderId == Some(responderId)
      && o2.db.incidents.rows[ParseOid(second).value].assignedResponderId == Some(responderId)
  {
    AssignmentEffects(db, first, responderId, now, filedAt, id1);
    var o1 := AssignResponderToIncident(db, first, responderId, now, filedAt, id1);
    AssignmentEffects(o1.db, second, responderId, now, filedAt, id2);
  }
}

=== FILE: geo_near.dfy ===
/** The shared shape of the two nearest-match searches: a `$geoNear` stage
    (records within a maximum distance, nearest first), a `$match` on the
    record's fields, and a `$limit`.

    The spherical distance from the query point is not computed here: each
    search receives the distance in metres of every record that has an
    indexed location, and a record missing from that map has none. Records
    at the same distance keep their scan order. */
module GeoNear {
  import opened ObjectIds
  import opened Tables

  /** A record as a stage passes it on: its id, its fields and the
      `distance_meters` the `$geoNear` stage attaches. */
  datatype Hit<T> = Hit(id: Oid, doc: T, metres: nat)

  predicate SortedByDistance<T>(s: seq<Hit<T>>) {
    forall i, j | 0 <= i < j < |s| :: s[i].metres <= s[j].metres
  }

  /** No record is listed twice: the ids of a list are pairwise distinct. */
  predicate DistinctHits<T>(s: seq<Hit<T>>) {
    forall i, j | 0 <= i < j < |s| :: s[i].id != s[j].id
  }

  /** `r` is `s` with some elements left out and the rest in their order. */
  predicate Subsequence<T(==)>(r: seq<T>, s: seq<T>)
    decreases |s|
  {
    || |r| == 0
    || (&& |s| > 0
        && ((r[0] == s[0] && Subsequence(r[1..], s[1..])) || Subsequence(r, s[1..])))
  }

  /** Inserts `h` in front of the first record that is not closer, so equal
      distances keep their relative order. */
  function InsertByDistance<T(==)>(h: Hit<T>, s: seq<Hit<T>>): (r: seq<Hit<T>>)
    requires SortedByDistance(s)
    ensures SortedByDistance(r)
    ensures multiset(r) == multiset(s) + multiset{h}
  {
    if |s| == 0 then [h]
    else if h.metres <= s[0].metres then [h] + s
    else
      var tail := InsertByDistance(h, s[1..]);
      assert s == [s[0]] + s[1..];
      FirstBoundsInsert(h, s, tail);
      [s[0]] + tail
  }

  lemma FirstBoundsInsert<T>(h: Hit<T>, s: seq<Hit<T>>, tail: seq<Hit<T>>)
    requires SortedByDistance(s) && |s| > 0 && s[0].metres < h.metres
    requires SortedByDistance(tail)
    requires multiset(tail) == multiset(s[1..]) + multiset{h}
    ensures SortedByDistance([s[0]] + tail)
  {
    forall k | 0 <= k < |tail|
      ensures s[0].metres <= tail[k].metres
    {
      assert tail[k] in multiset(tail);
      if tail[k] != h {
        assert tail[k] in multiset(s[1..]);
        assert tail[k] in s[1..];
      }
    }
    var r := [s[0]] + tail;
    forall i, j | 0 <= i < j < |r|
      ensures r[i].metres <= r[j].metres
    {
      assert r[j] == tail[j - 1];
      if i > 0 {
        assert r[i] == tail[i - 1];
      }
    }
  }

  /** Orders records nearest first; a permutation of the input. */
  function SortByDistance<T(==)>(s: seq<Hit<T>>): (r: seq<Hit<T>>)
    ensures SortedByDistance(r)
    ensures multiset(r) == multiset(s)
  {
    if |s| == 0 then []
    else
      assert s == [s[0]] + s[1..];
      InsertByDistance(s[0], SortByDistance(s[1..]))
  }

  /** The `$sort` stage on distance: the same records, nearest first. */
  function SortStage<T(==)>(s: seq<Hit<T>>): (r: seq<Hit<T>>)
    ensures SortedByDistance(r)
    ensures multiset(r) == multiset(s)
    ensures forall h | h in r :: h in s
    ensures forall h | h in s :: h in r
    ensures DistinctHits(s) ==> DistinctHits(r)
  {
    var r := SortByDistance(s);
    assert forall h | h in r :: h in multiset(s);
    assert forall h | h in s :: h in multiset(r);
    assert DistinctHits(s) ==> DistinctHits(r) by {
      if DistinctHits(s) {
        PermutationKeepsDistinct(s, r);
      }
    }
    r
  }

  /** Reordering a list that names every record once names every record
      once. */
  lemma PermutationKeepsDistinct<T>(s: seq<Hit<T>>, r: seq<Hit<T>>)
    requires multiset(r) == multiset(s)
    requires DistinctHits(s)
    ensures DistinctHits(r)
  {
    forall i, j | 0 <= i < j < |r|
      ensures r[i].id != r[j].id
    {
      if r[i].id == r[j].id {
        assert r[i] in multiset(s) && r[j] in multiset(s);
        var k :| 0 <= k < |s| && s[k] == r[j];
        var k' :| 0 <= k' < |s| && s[k'] == r[i];
        assert k' == k;
        TwiceIn(r, i, j);
        OnceIn(s, k);
        assert false;
      }
    }
  }

  /** A record at two positions of a list occurs in it at least twice. */
  lemma TwiceIn<T>(r: seq<Hit<T>>, i: int, j: int)
    requires 0 <= i < j < |r| && r[i] == r[j]
    ensures multiset(r)[r[j]] >= 2
  {
    assert r == r[..j] + r[j..];
    assert r[i] in r[..j] && r[j] in r[j..];
  }

  /** A record of a list with distinct ids occurs in it exactly once. */
  lemma OnceIn<T>(s: seq<Hit<T>>, k: int)
    requires DistinctHits(s) && 0 <= k < |s|
    ensures multiset(s)[s[k]] == 1
  {
    var x := s[k];
    assert s == s[..k] + [x] + s[k + 1..];
    assert forall i | 0 <= i < |s| && i != k :: s[i].id != x.id;
    assert x !in s[..k];
    assert x !in s[k + 1..];
  }

  lemma DistinctTail<T>(s: seq<Hit<T>>)
    requires |s| > 0 && DistinctHits(s)
    ensures DistinctHits(s[1..])
  {
    assert forall i | 0 <= i < |s| - 1 :: s[1..][i] == s[i + 1];
  }

  /** A record whose id no record of a list with distinct ids has can be put
      in front of it. */
  lemma ConsDistinct<T>(h: Hit<T>, s: seq<Hit<T>>)
    requires DistinctHits(s)
    requires forall x | x in s :: x.id != h.id
    ensures DistinctHits([h] + s)
  {
    var r := [h] + s;
    forall i, j | 0 <= i < j < |r|
      ensures r[i].id != r[j].id
    {
      assert r[j] == s[j - 1];
      if i > 0 {
        assert r[i] == s[i - 1];
      }
    }
  }

  /** Candidates of the `$geoNear` stage, in scan order: the records whose
      distance is known and at most `maxMetres`. */
  function WithinDistance<T>(rows: map<Oid, T>, order: seq<Oid>, distance: map<Oid, nat>, maxMetres: real)
    : (r: seq<Hit<T>>)
    requires forall i | 0 <= i < |order| :: order[i] in rows
    ensures forall h | h in r ::
      && h.id in order && h.id in distance && h.metres == distance[h.id]
      && h.doc == rows[h.id] && h.metres as real <= maxMetres
    ensures forall i | 0 <= i < |order| && order[i] in distance && distance[order[i]] as real <= maxMetres ::
      Hit(order[i], rows[order[i]], distance[order[i]]) in r
    ensures (forall i, j | 0 <= i < j < |order| :: order[i] != order[j]) ==> DistinctHits(r)
  {
    if |order| == 0 then []
    else
      var rest := WithinDistance(rows, order[1..], distance, maxMetres);
      assert forall i | 1 <= i < |order| :: order[i] == order[1..][i - 1];
      var id := order[0];
      if id in distance && distance[id] as real <= maxMetres then
        var h := Hit(id, rows[id], distance[id]);
        assert (forall i, j | 0 <= i < j < |order| :: order[i] != order[j]) ==> DistinctHits([h] + rest) by {
          if forall i, j | 0 <= i < j < |order| :: order[i] != order[j] {
            assert forall i, j | 0 <= i < j < |order[1..]| :: order[1..][i] != order[1..][j];
            forall x | x in rest ensures x.id != id {
              var i :| 0 <= i < |order[1..]| && order[1..][i] == x.id;
              assert order[i + 1] == x.id;
            }
            ConsDistinct(h, rest);
          }
        }
        [h] + rest
      else rest
  }

  /** The `$geoNear` stage over a whole collection. */
  function GeoNearStage<T(==)>(t: Table<T>, distance: map<Oid, nat>, maxMetres: real): (r: seq<Hit<T>>)
    ensures SortedByDistance(r)
    ensures forall h | h in r ::
      && h.id in t.rows && h.id in distance && h.metres == distance[h.id]
      && h.doc == t.rows[h.id] && h.metres as real <= maxMetres
    ensures forall id | id in t.rows && id in distance && distance[id] as real <= maxMetres ::
      Hit(id, t.rows[id], distance[id]) in r
    ensures DistinctHits(r)
  {
    SortStage(WithinDistance(t.rows, t.order, distance, maxMetres))
  }

  /** The `$match` stage: the records whose fields satisfy `p`, order kept. */
  function MatchStage<T(==)>(s: seq<Hit<T>>, p: T -> bool): (r: seq<Hit<T>>)
    ensures forall h | h in r :: h in s && p(h.doc)
    ensures forall h | h in s && p(h.doc) :: h in r
    ensures Subsequence(r, s)
    ensures multiset(r) <= multiset(s)
    ensures SortedByDistance(s) ==> SortedByDistance(r)
    ensures DistinctHits(s) ==> DistinctHits(r)
  {
    if |s| == 0 then []
    else
      var rest := MatchStage(s[1..], p);
      if p(s[0].doc) then
        KeepHead(s, p, rest);
        [s[0]] + rest
      else
        SkipHead(s, p, rest);
        rest
  }

  /** What the `$match` stage promises of its result `r` on input `s`. */
  predicate Matched<T(==)>(r: seq<Hit<T>>, s: seq<Hit<T>>, p: T -> bool) {
    && (forall h | h in r :: h in s && p(h.doc))
    && (forall h | h in s && p(h.doc) :: h in r)
    && Subsequence(r, s)
    && multiset(r) <= multiset(s)
    && (SortedByDistance(s) ==> SortedByDistance(r))
    && (DistinctHits(s) ==> DistinctHits(r))
  }

  /** A head that satisfies the conditions goes in front of the matched tail. */
  lemma KeepHead<T>(s: seq<Hit<T>>, p: T -> bool, rest: seq<Hit<T>>)
    requires |s| > 0 && p(s[0].doc)
    requires Matched(rest, s[1..], p)
    ensures Matched([s[0]] + rest, s, p)
  {
    var r := [s[0]] + rest;
    assert s == [s[0]] + s[1..];
    assert r[1..] == rest;
    assert forall h | h in s && h != s[0] :: h in s[1..];
    PrependHead(s, rest);
    if DistinctHits(s) {
      DistinctTail(s);
      forall x | x in rest ensures x.id != s[0].id {
        var m :| 0 <= m < |s[1..]| && s[1..][m] == x;
        assert s[m + 1] == x;
      }
      ConsDistinct(s[0], rest);
    }
  }

  /** A head that fails the conditions is left out. */
  lemma SkipHead<T>(s: seq<Hit<T>>, p: T -> bool, rest: seq<Hit<T>>)
    requires |s| > 0 && !p(s[0].doc)
    requires Matched(rest, s[1..], p)
    ensures Matched(rest, s, p)
  {
    assert s == [s[0]] + s[1..];
    assert forall h | h in s && h != s[0] :: h in s[1..];
    if SortedByDistance(s) {
      assert SortedByDistance(s[1..]);
    }
    if DistinctHits(s) {
      DistinctTail(s);
    }
  }

  /** Keeping the head of a nearest-first list in front of records drawn
      from its tail keeps the list nearest first. */
  lemma PrependHead<T>(s: seq<Hit<T>>, rest: seq<Hit<T>>)
    requires |s| > 0
    requires forall h | h in rest :: h in s[1..]
    requires SortedByDistance(s[1..]) ==> SortedByDistance(rest)
    ensures SortedByDistance(s) ==> SortedByDistance([s[0]] + rest)
  {
    if SortedByDistance(s) {
      assert SortedByDistance(s[1..]);
      forall h | h in rest
        ensures s[0].metres <= h.metres
      {
        var k :| 0 <= k < |s[1..]| && s[1..][k] == h;
        assert s[k + 1] == h;
      }
      PrependSorted(s[0], rest);
    }
  }

  /** A record no farther than every record of a nearest-first list can be
      put in front of it. */
  lemma PrependSorted<T>(h: Hit<T>, s: seq<Hit<T>>)
    requires SortedByDistance(s)
    requires forall x | x in s :: h.metres <= x.metres
    ensures SortedByDistance([h] + s)
  {
    var r := [h] + s;
    forall i, j | 0 <= i < j < |r|
      ensures r[i].metres <= r[j].metres
    {
      assert r[j] == s[j - 1];
      if i > 0 {
        assert r[i] == s[i - 1];
      }
    }
  }

  /** The `$limit` stage: the first `n` records. */
  function LimitStage<T>(s: seq<Hit<T>>, n: nat): (r: seq<Hit<T>>)
    ensures |r| == if |s| < n then |s| else n
    ensures forall i | 0 <= i < |r| :: r[i] == s[i]
    ensures DistinctHits(s) ==> DistinctHits(r)
  {
    if |s| <= n then s else s[..n]
  }

  /** Cutting a nearest-first list never drops a record closer than one it
      keeps: whatever is left out lies at least as far as all that is kept,
      and is left out only when the limit is reached. */
  lemma LimitKeepsNearest<T>(s: seq<Hit<T>>, n: nat, x: Hit<T>)
    requires SortedByDistance(s)
    requires x in s && x !in LimitStage(s, n)
    ensures |LimitStage(s, n)| == n
    ensures forall h | h in LimitStage(s, n) :: h.metres <= x.metres
  {
    var r := LimitStage(s, n);
    var j :| 0 <= j < |s| && s[j] == x;
    forall h | h in r
      ensures h.metres <= x.metres
    {
      var i :| 0 <= i < |r| && r[i] == h;
      assert s[i] == h;
    }
  }
}

=== FILE: hospitals.dfy ===
/** Hospitals: the nearest-hospital search and the bed-count update. */
module Hospitals {
  import opened Wrappers
  import opened ObjectIds
  import opened Records
  import opened Tables
  import opened Store
  import opened GeoNear

  /** Defaults of the search's keyword arguments. */
  const DefaultRadiusKm: real := 20.0
  const DefaultBedsRequired: int := 1
  const DefaultMaxResults: int := 5

  /** A search hit: the hospital, its distance and the derived `distance_km`. */
  datatype HospitalMatch = HospitalMatch(
    id: Oid,
    hospital: Hospital,
    distanceMetres: nat,
    distanceKm: real)

  /** The `$match` conditions of the search: operational, enough free beds,
      and the specialty among the hospital's when one is asked for. */
  predicate HospitalQualifies(h: Hospital, specialty: Option<string>, bedsRequired: int) {
    && h.status == Some(HospitalOperational)
    && h.bedsAvailable.Some? && h.bedsAvailable.value >= bedsRequired
    && (Given(specialty) ==> specialty.value in h.specialties)
  }

  /** The pipeline's records before they are annotated. The `$sort` after the
      `$match` re-sorts a list that is already nearest first. */
  function HospitalHits(db: Db, distance: map<Oid, nat>, radiusKm: real, specialty: Option<string>,
                        bedsRequired: int, maxResults: nat): (hits: seq<Hit<Hospital>>)
    ensures |hits| <= maxResults
    ensures SortedByDistance(hits)
    ensures DistinctHits(hits)
    ensures forall h | h in hits ::
      && h.id in db.hospitals.rows && h.id in distance && h.metres == distance[h.id]
      && h.doc == db.hospitals.rows[h.id] && h.metres as real <= radiusKm * 1000.0
      && HospitalQualifies(h.doc, specialty, bedsRequired)
  {
    var near := GeoNearStage(db.hospitals, distance, radiusKm * 1000.0);
    var matched := MatchStage(near, (h: Hospital) => HospitalQualifies(h, specialty, bedsRequired));
    assert DistinctHits(matched);
    var sorted := SortStage(matched);
    assert DistinctHits(sorted);
    var hits := LimitStage(sorted, maxResults);
    assert forall h | h in hits :: h in sorted;
    hits
  }

  function ToHospitalMatch(h: Hit<Hospital>): (m: HospitalMatch)
    ensures m.id == h.id && m.hospital == h.doc && m.distanceMetres == h.metres
    ensures m.distanceKm * 1000.0 == h.metres as real
  {
    HospitalMatch(h.id, h.doc, h.metres, h.metres as real / 1000.0)
  }

  /** The pipeline's records with `distance_km` added. */
  function Annotate(hits: seq<Hit<Hospital>>): (r: seq<HospitalMatch>)
    ensures |r| == |hits|
    ensures forall i | 0 <= i < |r| :: r[i] == ToHospitalMatch(hits[i])
    ensures forall i | 0 <= i < |r| ::
      && r[i].id == hits[i].id && r[i].hospital == hits[i].doc && r[i].distanceMetres == hits[i].metres
      && r[i].distanceKm * 1000.0 == hits[i].metres as real
    ensures SortedByDistance(hits) ==> forall i, j | 0 <= i < j < |r| :: r[i].distanceMetres <= r[j].distanceMetres
    ensures DistinctHits(hits) ==> forall i, j | 0 <= i < j < |r| :: r[i].id != r[j].id
  {
    seq(|hits|, i requires 0 <= i < |hits| => ToHospitalMatch(hits[i]))
  }

  /** `get_nearby_hospitals`. As for the responder search, `distance` stands
      for the query point, and the same arguments are refused; the encoder
      also refuses a `beds_required` beyond 64 bits, which the `$match`
      stage carries ahead of the `$limit`. */
  function NearbyHospitals(db: Db, distance: map<Oid, nat>, radiusKm: real, specialty: Option<string>,
                           bedsRequired: int, maxResults: int): (r: Result<seq<HospitalMatch>, DbError>)
    ensures maxResults < 0 ==> r == Err(NegativeLength(maxResults))
    ensures maxResults >= 0 && !FitsInt64(bedsRequired) ==> r == Err(IntOverflow(bedsRequired))
    ensures maxResults > MaxInt64 && FitsInt64(bedsRequired) ==> r == Err(IntOverflow(maxResults))
    ensures 0 <= maxResults <= MaxInt64 && FitsInt64(bedsRequired) && radiusKm < 0.0 ==> r == Err(NegativeMaxDistance)
    ensures maxResults == 0 && FitsInt64(bedsRequired) && radiusKm >= 0.0 ==> r == Err(LimitNotPositive(0))
    ensures r.Ok? <==> 0 < maxResults <= MaxInt64 && FitsInt64(bedsRequired) && radiusKm >= 0.0
    ensures r.Ok? ==> |r.value| <= maxResults
    ensures r.Ok? ==> forall i | 0 <= i < |r.value| ::
      && r.value[i].id in db.hospitals.rows
      && r.value[i].hospital == db.hospitals.rows[r.value[i].id]
      && r.value[i].id in distance
      && r.value[i].distanceMetres == distance[r.value[i].id]
      && r.value[i].distanceMetres as real <= radiusKm * 1000.0
      && HospitalQualifies(r.value[i].hospital, specialty, bedsRequired)
      && r.value[i].distanceKm * 1000.0 == r.value[i].distanceMetres as real
    ensures r.Ok? ==> forall i, j | 0 <= i < j < |r.value| ::
      r.value[i].distanceMetres <= r.value[j].distanceMetres
    ensures r.Ok? ==> forall i, j | 0 <= i < j < |r.value| :: r.value[i].id != r.value[j].id
  {
    if maxResults < 0 then Err(NegativeLength(maxResults))
    else if !FitsInt64(bedsRequired) then Err(IntOverflow(bedsRequired))
    else if !FitsInt64(maxResults) then Err(IntOverflow(maxResults))
    else if radiusKm < 0.0 then Err(NegativeMaxDistance)
    else if maxResults == 0 then Err(LimitNotPositive(maxResults))
    else
      AnnotatedHits(db, distance, radiusKm, specialty, bedsRequired, maxResults);
      Ok(Annotate(HospitalHits(db, distance, radiusKm, specialty, bedsRequired, maxResults)))
  }

  /** The annotated pipeline records, position by position. */
  lemma AnnotatedHits(db: Db, distance: map<Oid, nat>, radiusKm: real, specialty: Option<string>,
                      bedsRequired: int, maxResults: nat)
    ensures var r := Annotate(HospitalHits(db, distance, radiusKm, specialty, bedsRequired, maxResults));
      && |r| <= maxResults
      && (forall i | 0 <= i < |r| ::
            && r[i].id in db.hospitals.rows
            && r[i].hospital == db.hospitals.rows[r[i].id]
            && r[i].id in distance
            && r[i].distanceMetres == distance[r[i].id]
            && r[i].distanceMetres as real <= radiusKm * 1000.0
            && HospitalQualifies(r[i].hospital, specialty, bedsRequired)
            && r[i].distanceKm * 1000.0 == r[i].distanceMetres as real)
      && (forall i, j | 0 <= i < j < |r| :: r[i].distanceMetres <= r[j].distanceMetres)
      && (forall i, j | 0 <= i < j < |r| :: r[i].id != r[j].id)
  {
    var hits := HospitalHits(db, distance, radiusKm, specialty, bedsRequired, maxResults);
    assert forall i | 0 <= i < |hits| :: hits[i] in hits;
  }

  lemma HitsNearestFirst(db: Db, distance: map<Oid, nat>, radiusKm: real, specialty: Option<string>,
                         bedsRequired: int, maxResults: nat, x: Hit<Hospital>)
    requires x.id in db.hospitals.rows && x.id in distance
    requires x == Hit(x.id, db.hospitals.rows[x.id], distance[x.id])
    requires x.metres as real <= radiusKm * 1000.0
    requires HospitalQualifies(x.doc, specialty, bedsRequired)
    ensures var hits := HospitalHits(db, distance, radiusKm, specialty, bedsRequired, maxResults);
      x !in hits ==> |hits| == maxResults && forall h | h in hits :: h.metres <= x.metres
  {
    var p := (h: Hospital) => HospitalQualifies(h, specialty, bedsRequired);
    var near := GeoNearStage(db.hospitals, distance, radiusKm * 1000.0);
    var matched := MatchStage(near, p);
    var sorted := SortStage(matched);
    assert x in near;
    assert x in matched;
    if x !in LimitStage(sorted, maxResults) {
      LimitKeepsNearest(sorted, maxResults, x);
    }
  }

  /** A successful search returns the pipeline's records, in order. */
  lemma FoundAreHits(db: Db, distance: map<Oid, nat>, radiusKm: real, specialty: Option<string>,
                          bedsRequired: int, maxResults: int)
    requires 0 < maxResults <= MaxInt64 && FitsInt64(bedsRequired) && radiusKm >= 0.0
    ensures var found := NearbyHospitals(db, distance, radiusKm, specialty, bedsRequired, maxResults).value;
      var hits := HospitalHits(db, distance, radiusKm, specialty, bedsRequired, maxResults);
      && |found| == |hits|
      && forall i | 0 <= i < |found| :: found[i].id == hits[i].id && found[i].distanceMetres == hits[i].metres
  {
  }

  /** No qualifying hospital within the radius is passed over for a farther
      one: one left out of a successful search is left out only because the
      result is full, and every hospital returned is at most as far. */
  lemma NearbyHospitalsNearestFirst(db: Db, distance: map<Oid, nat>, radiusKm: real, specialty: Option<string>,
                                    bedsRequired: int, maxResults: int, id: Oid)
    requires 0 < maxResults <= MaxInt64 && FitsInt64(bedsRequired) && radiusKm >= 0.0
    requires id in db.hospitals.rows && id in distance
    requires distance[id] as real <= radiusKm * 1000.0
    requires HospitalQualifies(db.hospitals.rows[id], specialty, bedsRequired)
    ensures var found := NearbyHospitals(db, distance, radiusKm, specialty, bedsRequired, maxResults).value;
      (forall i | 0 <= i < |found| :: found[i].id != id) ==>
        && |found| == maxResults
        && forall i | 0 <= i < |found| :: found[i].distanceMetres <= distance[id]
  {
    var found := NearbyHospitals(db, distance, radiusKm, specialty, bedsRequired, maxResults).value;
    var hits := HospitalHits(db, distance, radiusKm, specialty, bedsRequired, maxResults);
    FoundAreHits(db, distance, radiusKm, specialty, bedsRequired, maxResults);
    var x := Hit(id, db.hospitals.rows[id], distance[id]);
    if x in hits {
      var k :| 0 <= k < |hits| && hits[k] == x;
      assert found[k].id == id;
    } else {
      HitsNearestFirst(db, distance, radiusKm, specialty, bedsRequired, maxResults, x);
      forall i | 0 <= i < |found|
        ensures found[i].distanceMetres <= distance[id]
      {
        assert hits[i] in hits;
      }
    }
  }

  /** A hospital document without a `status` field, as the seed data writes
      them, is never found, whatever its beds and specialties. */
  lemma HospitalWithoutStatusNeverFound(db: Db, distance: map<Oid, nat>, radiusKm: real, specialty: Option<string>,
                                        bedsRequired: int, maxResults: int)
    requires 0 < maxResults <= MaxInt64 && FitsInt64(bedsRequired) && radiusKm >= 0.0
    ensures var found := NearbyHospitals(db, distance, radiusKm, specialty, bedsRequired, maxResults).value;
      forall i | 0 <= i < |found| :: found[i].hospital.status.Some?
  {
  }

  /** The search with its default arguments always runs. */
  lemma DefaultSearchSucceeds(db: Db, distance: map<Oid, nat>, specialty: Option<string>)
    ensures NearbyHospitals(db, distance, DefaultRadiusKm, specialty, DefaultBedsRequired, DefaultMaxResults).Ok?
  {
  }

  /** `update_hospital_beds`: overwrites the free-bed count of the hospital
      the id names (any 64-bit integer, negative included) and hands back
      the hospital as stored afterwards, or nothing if no hospital has that
      id. A count beyond 64 bits cannot be encoded: the call raises and
      nothing is written. */
  function UpdateHospitalBeds(db: Db, hospitalId: string, bedsAvailable: int)
    : (o: Outcome<Option<Stored<Hospital>>>)
    ensures ParseOid(hospitalId).None? ==> o == Outcome(db, Err(InvalidId(hospitalId)))
    ensures ParseOid(hospitalId).Some? ==> (o.result.Ok? <==> FitsInt64(bedsAvailable))
    ensures ParseOid(hospitalId).Some? && !FitsInt64(bedsAvailable) ==>
      o == Outcome(db, Err(IntOverflow(bedsAvailable)))
    ensures o.db.hospitals.rows.Keys == db.hospitals.rows.Keys
    ensures o.db.hospitals.order == db.hospitals.order
    ensures o.result.Ok? ==> forall id | id in db.hospitals.rows ::
      o.db.hospitals.rows[id] ==
        if Some(id) == ParseOid(hospitalId) then db.hospitals.rows[id].(bedsAvailable := Some(bedsAvailable))
        else db.hospitals.rows[id]
    ensures o.result.Ok? ==>
      (o.result.value.Some? <==> ParseOid(hospitalId).value in db.hospitals.rows)
    ensures o.result.Ok? && o.result.value.Some? ==>
      && o.result.value.value.id == ParseOid(hospitalId).value
      && o.result.value.value.doc.bedsAvailable == Some(bedsAvailable)
      && o.result.value.value.doc == o.db.hospitals.rows[o.result.value.value.id]
    ensures o.db.incidents == db.incidents && o.db.responders == db.responders
    ensures o.db.responses == db.responses
  {
    match ToOid(hospitalId)
    case Err(e) => Outcome(db, Err(e))
    case Ok(id) =>
      if !FitsInt64(bedsAvailable) then Outcome(db, Err(IntOverflow(bedsAvailable)))
      else
      var hospitals := Update(db.hospitals, id, (h: Hospital) => h.(bedsAvailable := Some(bedsAvailable)));
      var found := if id in hospitals.rows then Some(Stored(id, hospitals.rows[id])) else None;
      Outcome(db.(hospitals := hospitals), Ok(found))
  }

  /** After its free beds are set below what a search asks for, a hospital
      is left out of that search, whatever else it offers. A count beyond
      64 bits is never written, and the database stays as it was. */
  lemma BedsBelowRequiredNeverFound(db: Db, hospitalId: string, beds: int, distance: map<Oid, nat>,
                                    radiusKm: real, specialty: Option<string>, bedsRequired: int, maxResults: int)
    requires ParseOid(hospitalId).Some? && beds < bedsRequired
    requires 0 < maxResults <= MaxInt64 && FitsInt64(bedsRequired) && radiusKm >= 0.0
    ensures var db' := UpdateHospitalBeds(db, hospitalId, beds).db;
      var found := NearbyHospitals(db', distance, radiusKm, specialty, bedsRequired, maxResults).value;
      if FitsInt64(beds) then forall i | 0 <= i < |found| :: found[i].id != ParseOid(hospitalId).value
      else db' == db
  {
  }

  /** After its free beds are set to what a search asks for, an operational
      hospital within the radius offering the specialty is found, unless the
      result is already full of hospitals at most as far. A count beyond
      64 bits is never written, and the database stays as it was. */
  lemma RestockedHospitalIsFound(db: Db, hospitalId: string, beds: int, distance: map<Oid, nat>,
                                 radiusKm: real, specialty: Option<string>, bedsRequired: int, maxResults: int)
    requires ParseOid(hospitalId).Some? && ParseOid(hospitalId).value in db.hospitals.rows
    requires beds >= bedsRequired
    requires 0 < maxResults <= MaxInt64 && FitsInt64(bedsRequired) && radiusKm >= 0.0
    requires var id := ParseOid(hospitalId).value;
      && db.hospitals.rows[id].status == Some(HospitalOperational)
      && (Given(specialty) ==> specialty.value in db.hospitals.rows[id].specialties)
      && id in distance && distance[id] as real <= radiusKm * 1000.0
    ensures var id := ParseOid(hospitalId).value;
      var db' := UpdateHospitalBeds(db, hospitalId, beds).db;
      var found := NearbyHospitals(db', distance, radiusKm, specialty, bedsRequired, maxResults).value;
      if FitsInt64(beds) then
        || (exists i :: 0 <= i < |found| && found[i].id == id && found[i].hospital.bedsAvailable == Some(beds))
        || (|found| == maxResults && forall i | 0 <= i < |found| :: found[i].distanceMetres <= distance[id])
      else db' == db
  {
    var id := ParseOid(hospitalId).value;
    var db' := UpdateHospitalBeds(db, hospitalId, beds).db;
    if FitsInt64(beds) {
      assert db'.hospitals.rows[id] == db.hospitals.rows[id].(bedsAvailable := Some(beds));
      NearbyHospitalsNearestFirst(db', distance, radiusKm, specialty, bedsRequired, maxResults, id);
      var found := NearbyHospitals(db', distance, radiusKm, specialty, bedsRequired, maxResults).value;
      if i :| 0 <= i < |found| && found[i].id == id {
        assert found[i].hospital == db'.hospitals.rows[id];
      }
    }
  }
}

=== FILE: incident_defaults.dfy ===
/** The defaults an incident record is documented to receive on creation,
    and what their absence does to the active-incident queries. */
module IncidentDefaults {
  import opened Wrappers
  import opened ObjectIds
  import opened Records
  import opened Tables
  import opened Store
  import opened Incidents
  import opened IncidentQueries
  import Dashboard

  /** The documented default priority: standard. */
  const DefaultPriority: string := "P3"

  /** The incident as documented after defaulting: a missing status becomes
      `active`, a missing priority becomes `P3`; given values are kept. */
  function WithDefaults(data: Incident): (inc: Incident)
    ensures inc.status == (if data.status.Some? then data.status else Some(IncidentActive))
    ensures inc.priority == (if data.priority.Some? then data.priority else Some(DefaultPriority))
    ensures inc.(status := data.status, priority := data.priority) == data
  {
    data.(status := if data.status.Some? then data.status else Some(IncidentActive),
          priority := if data.priority.Some? then data.priority else Some(DefaultPriority))
  }

  /** `create_incident` with the documented defaults filled in before the
      insert. */
  function CreateIncidentWithDefaults(db: Db, data: Incident, createdAt: Timestamp, updatedAt: Timestamp, newId: Oid): (o: Outcome<string>)
    ensures newId in db.incidents.rows <==> o.result.Err?
    ensures o.result.Err? ==> o.db == db && o.result.error == DuplicateKey(newId)
    ensures o.result.Ok? ==> ParseOid(o.result.value) == Some(newId)
    ensures o.result.Ok? ==> o.db.incidents.rows == db.incidents.rows[newId := Stamped(WithDefaults(data), createdAt, updatedAt)]
    ensures o.result.Ok? ==> o.db.incidents.rows[newId].status.Some?
    ensures o.result.Ok? ==> o.db.incidents.rows[newId].priority.Some?
    ensures o.db.responders == db.responders && o.db.hospitals == db.hospitals
    ensures o.db.responses == db.responses
  {
    CreateIncident(db, WithDefaults(data), createdAt, updatedAt, newId)
  }

  /** Storing a new incident adds it to the active ids exactly when it is
      active. */
  lemma ActiveIdsAfterInsert(rows: map<Oid, Incident>, id: Oid, inc: Incident)
    requires id !in rows
    ensures ActiveIds(rows[id := inc]) == if IsActive(inc) then ActiveIds(rows) + {id} else ActiveIds(rows)
  {
  }

  /** Inserting an active incident raises the active count by one. */
  lemma ActiveCountAfterInsert(rows: map<Oid, Incident>, id: Oid, inc: Incident)
    requires id !in rows && IsActive(inc)
    ensures CountActive(rows[id := inc]) == CountActive(rows) + 1
  {
    ActiveIdsAfterInsert(rows, id, inc);
    assert id !in ActiveIds(rows);
  }

  /** As written, an incident created without a status never shows up among
      the active incidents and leaves the dashboard's active count as it was. */
  lemma CreatedWithoutStatusIsNeverActive(db: Db, data: Incident, createdAt: Timestamp, updatedAt: Timestamp, newId: Oid, limit: int)
    requires newId !in db.incidents.rows && data.status.None?
    ensures var o := CreateIncident(db, data, createdAt, updatedAt, newId);
      && o.result.Ok?
      && Dashboard.GetDashboardStats(o.db).activeIncidents == Dashboard.GetDashboardStats(db).activeIncidents
      && (GetActiveIncidents(o.db, limit).Ok? ==>
            forall k | 0 <= k < |GetActiveIncidents(o.db, limit).value| ::
              GetActiveIncidents(o.db, limit).value[k].id != newId)
  {
    var o := CreateIncident(db, data, createdAt, updatedAt, newId);
    assert o.db.incidents.rows == db.incidents.rows[newId := Stamped(data, createdAt, updatedAt)];
    ActiveIdsAfterInsert(db.incidents.rows, newId, Stamped(data, createdAt, updatedAt));
  }

  /** With the defaults filled in, an incident created without a status is
      active: the dashboard counts it, and it is listed whenever the page has
      room for every active incident. */
  lemma DefaultedIncidentIsActive(db: Db, data: Incident, createdAt: Timestamp, updatedAt: Timestamp, newId: Oid, limit: int)
    requires newId !in db.incidents.rows && data.status.None?
    ensures var o := CreateIncidentWithDefaults(db, data, createdAt, updatedAt, newId);
      && o.result.Ok?
      && Dashboard.GetDashboardStats(o.db).activeIncidents == Dashboard.GetDashboardStats(db).activeIncidents + 1
      && (GetActiveIncidents(o.db, limit).Ok? && |GetActiveIncidents(o.db, limit).value| < limit ==>
            Stored(newId, o.db.incidents.rows[newId]) in GetActiveIncidents(o.db, limit).value)
  {
    var o := CreateIncidentWithDefaults(db, data, createdAt, updatedAt, newId);
    var inc := Stamped(WithDefaults(data), createdAt, updatedAt);
    assert IsActive(inc);
    ActiveCountAfterInsert(db.incidents.rows, newId, inc);
  }
}

=== FILE: incident_queries.dfy ===
/** Selecting incidents: the newest recent one, and the active ones. */
module IncidentQueries {
  import opened Wrappers
  import opened ObjectIds
  import opened Records
  import opened Tables
  import opened Store

  /** How far back `get_latest_incident` looks: five minutes. */
  const LatestWindowMs: int := 5 * 60 * 1000

  /** `get_active_incidents`'s default page size. */
  const DefaultActiveLimit: int := 50

  predicate InWindow(inc: Incident, now: Timestamp) {
    inc.createdAt >= now - LatestWindowMs
  }

  predicate IsActive(inc: Incident) {
    inc.status == Some(IncidentActive)
  }

  /** The newest incident of `order` created inside the window; among
      incidents created at the same instant the first scanned is kept. */
  function LatestIn(rows: map<Oid, Incident>, order: seq<Oid>, now: Timestamp): (r: Option<Stored<Incident>>)
    requires forall i | 0 <= i < |order| :: order[i] in rows
    ensures r.Some? <==> exists i :: 0 <= i < |order| && InWindow(rows[order[i]], now)
    ensures r.Some? ==> r.value.id in order && r.value.doc == rows[r.value.id] && InWindow(r.value.doc, now)
    ensures r.Some? ==> forall i | 0 <= i < |order| && InWindow(rows[order[i]], now) ::
      rows[order[i]].createdAt <= r.value.doc.createdAt
    decreases |order|
  {
    if |order| == 0 then None
    else
      var prefix := order[..|order| - 1];
      assert forall i | 0 <= i < |prefix| :: prefix[i] == order[i];
      var best := LatestIn(rows, prefix, now);
      var last := order[|order| - 1];
      if !InWindow(rows[last], now) then best
      else if best.None? || rows[last].createdAt > best.value.doc.createdAt then Some(Stored(last, rows[last]))
      else best
  }

  /** `get_latest_incident`: the incident with the greatest `created_at` no
      more than five minutes before `now`, or none if there is no such
      incident. */
  function GetLatestIncident(db: Db, now: Timestamp): (r: Option<Stored<Incident>>)
    ensures r.Some? <==> exists id :: id in db.incidents.rows && InWindow(db.incidents.rows[id], now)
    ensures r.Some? ==>
      && r.value.id in db.incidents.rows && r.value.doc == db.incidents.rows[r.value.id]
      && r.value.doc.createdAt >= now - LatestWindowMs
    ensures r.Some? ==> forall id | id in db.incidents.rows && InWindow(db.incidents.rows[id], now) ::
      db.incidents.rows[id].createdAt <= r.value.doc.createdAt
  {
    var t := db.incidents;
    var r := LatestIn(t.rows, t.order, now);
    assert forall id | id in t.rows :: exists i :: 0 <= i < |t.order| && t.order[i] == id;
    r
  }

  /** An incident created at `now` is the latest one, unless another was
      created at that instant or later. */
  lemma FreshIncidentIsLatest(db: Db, id: Oid, now: Timestamp)
    requires id in db.incidents.rows && db.incidents.rows[id].createdAt == now
    requires forall other | other in db.incidents.rows && other != id :: db.incidents.rows[other].createdAt < now
    ensures GetLatestIncident(db, now) == Some(Stored(id, db.incidents.rows[id]))
  {
    var r := GetLatestIncident(db, now);
    assert InWindow(db.incidents.rows[id], now);
    assert r.Some?;
    assert db.incidents.rows[id].createdAt <= r.value.doc.createdAt;
  }

  /** The active incidents of `order`, in scan order. */
  function ActiveIn(rows: map<Oid, Incident>, order: seq<Oid>): (r: seq<Stored<Incident>>)
    requires forall i | 0 <= i < |order| :: order[i] in rows
    ensures forall k | 0 <= k < |r| :: r[k].id in order && r[k].doc == rows[r[k].id] && IsActive(r[k].doc)
    ensures forall i | 0 <= i < |order| && IsActive(rows[order[i]]) :: Stored(order[i], rows[order[i]]) in r
    decreases |order|
  {
    if |order| == 0 then []
    else
      var prefix := order[..|order| - 1];
      assert forall i | 0 <= i < |prefix| :: prefix[i] == order[i];
      var rest := ActiveIn(rows, prefix);
      var last := order[|order| - 1];
      if IsActive(rows[last]) then rest + [Stored(last, rows[last])] else rest
  }

  /** `get_active_incidents`: at most `limit` active incidents, all of them
      when there are fewer. A negative limit is refused by the cursor, one
      beyond 64 bits by the encoder of the query; a limit of zero yields
      nothing. Which incidents fill a full page is up to the
      store; here it is the first ones scanned. */
  function GetActiveIncidents(db: Db, limit: int): (r: Result<seq<Stored<Incident>>, DbError>)
    ensures r.Err? <==> limit < 0 || limit > MaxInt64
    ensures limit < 0 ==> r.error == NegativeLength(limit)
    ensures limit > MaxInt64 ==> r.error == IntOverflow(limit)
    ensures r.Ok? ==> |r.value| <= limit
    ensures r.Ok? ==> forall k | 0 <= k < |r.value| ::
      && r.value[k].id in db.incidents.rows && r.value[k].doc == db.incidents.rows[r.value[k].id]
      && IsActive(r.value[k].doc)
    ensures r.Ok? && |r.value| < limit ==>
      forall id | id in db.incidents.rows && IsActive(db.incidents.rows[id]) ::
        Stored(id, db.incidents.rows[id]) in r.value
    ensures r.Ok? ==> DistinctIds(r.value)
  {
    if limit < 0 then Err(NegativeLength(limit))
    else if !FitsInt64(limit) then Err(IntOverflow(limit))
    else
      var all := ActiveIn(db.incidents.rows, db.incidents.order);
      ActiveInDistinct(db.incidents.rows, db.incidents.order);
      assert forall id | id in db.incidents.rows :: exists i :: 0 <= i < |db.incidents.order| && db.incidents.order[i] == id;
      if |all| <= limit then Ok(all) else Ok(all[..limit])
  }

  /** The ids of the active incidents. */
  function ActiveIds(rows: map<Oid, Incident>): (ids: set<Oid>)
    ensures forall id :: id in ids <==> id in rows && IsActive(rows[id])
  {
    set id | id in rows && IsActive(rows[id])
  }

  /** The number of active incidents, as the dashboard counts them. */
  function CountActive(rows: map<Oid, Incident>): (c: nat)
    ensures c <= |rows|
    ensures c == 0 <==> forall id | id in rows :: !IsActive(rows[id])
    ensures c == |rows| <==> forall id | id in rows :: IsActive(rows[id])
  {
    var active := ActiveIds(rows);
    SubsetCard(active, rows.Keys);
    assert |active| == 0 ==> forall id | id in rows :: !IsActive(rows[id]) by {
      if |active| == 0 { assert active == {}; }
    }
    assert |rows.Keys| == |rows|;
    assert (forall id | id in rows :: IsActive(rows[id])) ==> active == rows.Keys;
    |active|
  }

  /** A subset is no larger than its superset, and equal in size only when
      it is the whole superset. */
  lemma SubsetCard<K>(a: set<K>, b: set<K>)
    requires a <= b
    ensures |a| <= |b|
    ensures |a| == |b| ==> a == b
  {
    assert b == a + (b - a);
    assert |b| == |a| + |b - a|;
    if |a| == |b| {
      assert |b - a| == 0;
      assert b - a == {};
    }
  }

  /** Rewriting an incident without touching its status keeps the count. */
  lemma CountActiveKeepsStatus(rows: map<Oid, Incident>, id: Oid, after: Incident)
    requires id in rows && after.status == rows[id].status
    ensures CountActive(rows[id := after]) == CountActive(rows)
  {
    var rows' := rows[id := after];
    assert ActiveIds(rows') == ActiveIds(rows);
  }

  /** Distinct ids drawn from a set are no more than the set holds. */
  lemma {:induction false} DistinctWithin(ids: seq<Oid>, pool: set<Oid>)
    requires forall i, j | 0 <= i < j < |ids| :: ids[i] != ids[j]
    requires forall i | 0 <= i < |ids| :: ids[i] in pool
    ensures |ids| <= |pool|
    decreases |ids|
  {
    if |ids| > 0 {
      var last := ids[|ids| - 1];
      var prefix := ids[..|ids| - 1];
      assert forall i | 0 <= i < |prefix| :: prefix[i] == ids[i] && prefix[i] != last;
      DistinctWithin(prefix, pool - {last});
    }
  }

  /** A scan over distinct ids lists each active incident once. */
  lemma {:induction false} ActiveInDistinct(rows: map<Oid, Incident>, order: seq<Oid>)
    requires forall i | 0 <= i < |order| :: order[i] in rows
    requires forall i, j | 0 <= i < j < |order| :: order[i] != order[j]
    ensures DistinctIds(ActiveIn(rows, order))
    decreases |order|
  {
    if |order| > 0 {
      var prefix := order[..|order| - 1];
      assert forall i | 0 <= i < |prefix| :: prefix[i] == order[i];
      ActiveInDistinct(rows, prefix);
      var last := order[|order| - 1];
      var rest := ActiveIn(rows, prefix);
      assert forall k | 0 <= k < |rest| :: rest[k].id != last by {
        forall k | 0 <= k < |rest| ensures rest[k].id != last {
          var i :| 0 <= i < |prefix| && prefix[i] == rest[k].id;
        }
      }
      if IsActive(rows[last]) {
        SnocDistinct(rest, Stored(last, rows[last]));
      }
    }
  }

  /** A page never holds more incidents than are active, and a page with
      room to spare holds every active incident. */
  lemma ActivePage(db: Db, limit: int)
    requires limit >= 0
    ensures var r := GetActiveIncidents(db, limit);
      && (r.Ok? <==> limit <= MaxInt64)
      && (r.Ok? ==> |r.value| <= CountActive(db.incidents.rows))
      && (r.Ok? && CountActive(db.incidents.rows) < limit ==>
            forall id | id in db.incidents.rows && IsActive(db.incidents.rows[id]) ::
              Stored(id, db.incidents.rows[id]) in r.value)
  {
    var rows := db.incidents.rows;
    var all := ActiveIn(rows, db.incidents.order);
    ActiveInDistinct(rows, db.incidents.order);
    var ids := seq(|all|, k requires 0 <= k < |all| => all[k].id);
    forall i, j | 0 <= i < j < |ids| ensures ids[i] != ids[j] {
      assert all[i].id != all[j].id;
    }
    DistinctWithin(ids, ActiveIds(rows));
    var r := GetActiveIncidents(db, limit);
    if r.Ok? {
      assert forall k | 0 <= k < |r.value| :: r.value[k] == all[k];
    }
  }

  /** The default page of fifty is complete while fewer than fifty
      incidents are active. */
  lemma DefaultPageIsComplete(db: Db)
    requires CountActive(db.incidents.rows) < DefaultActiveLimit
    ensures var r := GetActiveIncidents(db, DefaultActiveLimit);
      && r.Ok? && |r.value| == CountActive(db.incidents.rows)
      && forall id | id in db.incidents.rows && IsActive(db.incidents.rows[id]) ::
           Stored(id, db.incidents.rows[id]) in r.value
  {
    ActivePage(db, DefaultActiveLimit);
    ListedBound(db.incidents.rows, GetActiveIncidents(db, DefaultActiveLimit).value);
  }

  /** A list naming every active incident is at least as long as their count. */
  lemma ListedBound(rows: map<Oid, Incident>, r: seq<Stored<Incident>>)
    requires forall id | id in rows && IsActive(rows[id]) :: Stored(id, rows[id]) in r
    ensures CountActive(rows) <= |r|
  {
    var ids := seq(|r|, k requires 0 <= k < |r| => r[k].id);
    forall id | id in ActiveIds(rows) ensures id in ids {
      var k :| 0 <= k < |r| && r[k] == Stored(id, rows[id]);
      assert ids[k] == id;
    }
    CoveredWithin(ActiveIds(rows), ids);
  }

  /** A set whose every member is listed in `ids` is no larger than `ids`. */
  lemma {:induction false} CoveredWithin(pool: set<Oid>, ids: seq<Oid>)
    requires forall id | id in pool :: id in ids
    ensures |pool| <= |ids|
    decreases |ids|
  {
    if |ids| > 0 {
      var last := ids[|ids| - 1];
      var prefix := ids[..|ids| - 1];
      forall id | id in pool - {last} ensures id in prefix {
        var i :| 0 <= i < |ids| && ids[i] == id;
        assert prefix[i] == id;
      }
      CoveredWithin(pool - {last}, prefix);
    }
  }
}

=== FILE: incidents.dfy ===
/** Incident records: creation, lookup and field updates. */
module Incidents {
  import opened Wrappers
  import opened ObjectIds
  import opened Records
  import opened Tables
  import opened Store

  /** The record an insert stores: the two timestamps are overwritten with
      two clock readings, whatever the caller supplied. */
  function Stamped(data: Incident, createdAt: Timestamp, updatedAt: Timestamp): (inc: Incident)
    ensures inc.createdAt == createdAt && inc.updatedAt == updatedAt
    ensures inc.(createdAt := data.createdAt, updatedAt := data.updatedAt) == data
  {
    data.(createdAt := createdAt, updatedAt := updatedAt)
  }

  /** `create_incident`: inserts `data` stamped with the clock read twice,
      first for `created_at` and then for `updated_at`, under the fresh id
      `newId` and returns the id's text. The data is stored as given: no
      status or priority default is filled in. */
  function CreateIncident(db: Db, data: Incident, createdAt: Timestamp, updatedAt: Timestamp, newId: Oid): (o: Outcome<string>)
    ensures newId in db.incidents.rows <==> o.result.Err?
    ensures o.result.Err? ==> o.db == db && o.result.error == DuplicateKey(newId)
    ensures o.result.Ok? ==> ParseOid(o.result.value) == Some(newId)
    ensures o.result.Ok? ==> o.db.incidents.rows.Keys == db.incidents.rows.Keys + {newId}
    ensures o.result.Ok? ==> o.db.incidents.rows[newId] == Stamped(data, createdAt, updatedAt)
    ensures o.result.Ok? ==> o.db.incidents.order == db.incidents.order + [newId]
    ensures forall id | id in db.incidents.rows :: o.db.incidents.rows[id] == db.incidents.rows[id]
    ensures o.db.responders == db.responders && o.db.hospitals == db.hospitals
    ensures o.db.responses == db.responses
  {
    if newId in db.incidents.rows then
      Outcome(db, Err(DuplicateKey(newId)))
    else
      ParseFormatOid(newId);
      Outcome(db.(incidents := Insert(db.incidents, newId, Stamped(data, createdAt, updatedAt))), Ok(FormatOid(newId)))
  }

  /** `get_incident`. */
  function GetIncident(db: Db, incidentId: string): (r: Result<Option<Incident>, DbError>)
    ensures r.Err? <==> ParseOid(incidentId).None?
    ensures r.Err? ==> r.error == InvalidId(incidentId)
    ensures r.Ok? ==> (r.value.Some? <==> ParseOid(incidentId).value in db.incidents.rows)
    ensures r.Ok? && r.value.Some? ==> r.value.value == db.incidents.rows[ParseOid(incidentId).value]
  {
    match ToOid(incidentId)
    case Err(e) => Err(e)
    case Ok(id) => Ok(Find(db.incidents, id))
  }

  /** `update_incident`: `$set` of the patch plus `updated_at` on the incident
      the id names. A well-formed id that names no incident changes nothing;
      either way the id is handed back as given. */
  function UpdateIncident(db: Db, incidentId: string, patch: IncidentPatch, now: Timestamp): (o: Outcome<string>)
    ensures ParseOid(incidentId).None? ==> o == Outcome(db, Err(InvalidId(incidentId)))
    ensures ParseOid(incidentId).Some? ==> o.result == Ok(incidentId)
    ensures o.db.incidents.order == db.incidents.order
    ensures o.db.incidents.rows.Keys == db.incidents.rows.Keys
    ensures forall id | id in db.incidents.rows ::
      o.db.incidents.rows[id] ==
        if Some(id) == ParseOid(incidentId) then ApplyPatch(db.incidents.rows[id], patch, now)
        else db.incidents.rows[id]
    ensures o.db.responders == db.responders && o.db.hospitals == db.hospitals
    ensures o.db.responses == db.responses
  {
    match ToOid(incidentId)
    case Err(e) => Outcome(db, Err(e))
    case Ok(id) =>
      var incidents := Update(db.incidents, id, (inc: Incident) => ApplyPatch(inc, patch, now));
      Outcome(db.(incidents := incidents), Ok(incidentId))
  }

  /** The text `create_incident` returns names the new incident: looking it up
      finds the stored record. */
  lemma CreatedIncidentIsFound(db: Db, data: Incident, createdAt: Timestamp, updatedAt: Timestamp, newId: Oid)
    requires newId !in db.incidents.rows
    ensures var o := CreateIncident(db, data, createdAt, updatedAt, newId);
      o.result.Ok? && GetIncident(o.db, o.result.value) == Ok(Some(Stamped(data, createdAt, updatedAt)))
  {
  }

  /** Updating through the text `create_incident` returned patches exactly the
      new incident. */
  lemma UpdateCreatedIncident(db: Db, data: Incident, createdAt: Timestamp, updatedAt: Timestamp, newId: Oid,
                              patch: IncidentPatch, later: Timestamp)
    requires newId !in db.incidents.rows
    ensures var o := CreateIncident(db, data, createdAt, updatedAt, newId);
      var u := UpdateIncident(o.db, o.result.value, patch, later);
      && u.result == Ok(FormatOid(newId))
      && u.db.incidents.rows[newId] == ApplyPatch(Stamped(data, createdAt, updatedAt), patch, later)
      && forall id | id in db.incidents.rows :: u.db.incidents.rows[id] == db.incidents.rows[id]
  {
    ParseFormatOid(newId);
  }

  /** Repeating an update at the same instant changes nothing more. */
  lemma UpdateIncidentIdempotent(db: Db, incidentId: string, patch: IncidentPatch, now: Timestamp)
    ensures var once := UpdateIncident(db, incidentId, patch, now);
      UpdateIncident(once.db, incidentId, patch, now) == once
  {
    var once := UpdateIncident(db, incidentId, patch, now);
    var twice := UpdateIncident(once.db, incidentId, patch, now);
    if ParseOid(incidentId).Some? {
      forall id | id in db.incidents.rows
        ensures twice.db.incidents.rows[id] == once.db.incidents.rows[id]
      {
        ApplyPatchIdempotent(db.incidents.rows[id], patch, now);
      }
      assert twice.db.incidents.rows == once.db.incidents.rows;
    }
  }
}

=== FILE: object_ids.dfy ===
/** BSON ObjectIds and their 24-character hexadecimal text form.

    Every lookup in the store converts an id string with `ObjectId(text)`,
    which raises on anything but 24 hexadecimal digits (either case), and every
    insert hands ids back as `str(oid)`, which is always lower case. */
module ObjectIds {
  import opened Wrappers

  type Byte = b: int | 0 <= b < 256

  /** The twelve bytes of an ObjectId. */
  type Oid = s: seq<Byte> | |s| == 12 witness [0, 0, 0, 0, 0, 0, 0, 0, 0, 0, 0, 0]

  /** Length of the text form of an ObjectId. */
  const OidTextLength := 24

  predicate IsHexChar(c: char) {
    ('0' <= c <= '9') || ('a' <= c <= 'f') || ('A' <= c <= 'F')
  }

  predicate IsLowerHexChar(c: char) {
    ('0' <= c <= '9') || ('a' <= c <= 'f')
  }

  predicate AllHex(s: string) {
    forall i :: 0 <= i < |s| ==> IsHexChar(s[i])
  }

  predicate AllLowerHex(s: string) {
    forall i :: 0 <= i < |s| ==> IsLowerHexChar(s[i])
  }

  function HexValue(c: char): (v: nat)
    requires IsHexChar(c)
    ensures v < 16
  {
    if '0' <= c <= '9' then c as int - '0' as int
    else if 'a' <= c <= 'f' then c as int - 'a' as int + 10
    else c as int - 'A' as int + 10
  }

  /** The lower-case digit for a nibble; it reads back as the same nibble. */
  function HexDigit(v: nat): (c: char)
    requires v < 16
    ensures IsLowerHexChar(c)
    ensures HexValue(c) == v
  {
    if v < 10 then ('0' as int + v) as char else ('a' as int + v - 10) as char
  }

  /** A lower-case digit is the digit of its own value. */
  lemma HexDigitOfValue(c: char)
    requires IsLowerHexChar(c)
    ensures HexDigit(HexValue(c)) == c
  {
  }

  /** Decodes pairs of hexadecimal digits into bytes, failing on an odd
      length or on any character that is not a hexadecimal digit. */
  function DecodeHex(s: string): (r: Option<seq<Byte>>)
    ensures r.Some? <==> |s| % 2 == 0 && AllHex(s)
    ensures r.Some? ==> 2 * |r.value| == |s|
    ensures r.Some? ==> forall i | 0 <= i < |r.value| ::
      r.value[i] == 16 * HexValue(s[2 * i]) + HexValue(s[2 * i + 1])
    decreases |s|
  {
    if |s| == 0 then Some([])
    else if |s| == 1 || !IsHexChar(s[0]) || !IsHexChar(s[1]) then None
    else
      var rest := DecodeHex(s[2..]);
      if rest.None? then
        AllHexTail(s);
        None
      else
        assert forall i | 0 <= i < |s| - 2 :: s[2..][i] == s[i + 2];
        Some([16 * HexValue(s[0]) + HexValue(s[1])] + rest.value)
  }

  lemma AllHexTail(s: string)
    requires |s| >= 2
    ensures AllHex(s) ==> AllHex(s[2..])
  {
    if AllHex(s) {
      forall i | 0 <= i < |s| - 2
        ensures IsHexChar(s[2..][i])
      {
        assert s[2..][i] == s[i + 2];
      }
    }
  }

  lemma SplitByte(hi: nat, lo: nat)
    requires hi < 16 && lo < 16
    ensures (16 * hi + lo) / 16 == hi
    ensures (16 * hi + lo) % 16 == lo
  {
  }

  /** Encodes bytes as lower-case hexadecimal, two digits per byte, high
      nibble first. */
  function EncodeHex(b: seq<Byte>): (s: string)
    ensures |s| == 2 * |b|
    ensures AllLowerHex(s)
    ensures forall i | 0 <= i < |b| :: s[2 * i] == HexDigit(b[i] / 16) && s[2 * i + 1] == HexDigit(b[i] % 16)
  {
    if |b| == 0 then []
    else
      var rest := EncodeHex(b[1..]);
      var s := [HexDigit(b[0] / 16), HexDigit(b[0] % 16)] + rest;
      assert forall i | 2 <= i < |s| :: s[i] == rest[i - 2];
      s
  }

  /** Decoding the hexadecimal form of bytes gives the bytes back. */
  lemma DecodeEncodeHex(b: seq<Byte>)
    ensures DecodeHex(EncodeHex(b)) == Some(b)
  {
    var s := EncodeHex(b);
    assert |s| == 2 * |b|;
    assert AllHex(s) by {
      forall i | 0 <= i < |s| ensures IsHexChar(s[i]) {
        assert IsLowerHexChar(s[i]);
      }
    }
    assert |s| % 2 == 0;
    var r := DecodeHex(s);
    assert r.Some?;
    var d := r.value;
    assert |d| == |b|;
    forall i | 0 <= i < |b| ensures d[i] == b[i] {
      assert s[2 * i] == HexDigit(b[i] / 16) && s[2 * i + 1] == HexDigit(b[i] % 16);
      PairValue(b[i]);
    }
    assert d == b;
  }

  /** The two digits written for a byte read back as that byte. */
  lemma PairValue(x: Byte)
    ensures 16 * HexValue(HexDigit(x / 16)) + HexValue(HexDigit(x % 16)) == x
  {
  }

  /** A lower-case hexadecimal text is the encoding of what it decodes to. */
  lemma EncodeDecodeHex(s: string, b: seq<Byte>)
    requires AllLowerHex(s)
    requires DecodeHex(s) == Some(b)
    ensures EncodeHex(b) == s
  {
    var e := EncodeHex(b);
    assert |e| == |s|;
    forall i | 0 <= i < |b| ensures e[2 * i] == s[2 * i] && e[2 * i + 1] == s[2 * i + 1] {
      EncodedPair(s, b, i);
    }
    forall k | 0 <= k < |s| ensures e[k] == s[k] {
      var i := k / 2;
      assert k == 2 * i || k == 2 * i + 1;
    }
  }

  /** Byte `i` of a decoded lower-case text encodes to digits `2i`, `2i+1`. */
  lemma EncodedPair(s: string, b: seq<Byte>, i: int)
    requires AllLowerHex(s)
    requires DecodeHex(s) == Some(b)
    requires 0 <= i < |b|
    ensures EncodeHex(b)[2 * i] == s[2 * i] && EncodeHex(b)[2 * i + 1] == s[2 * i + 1]
  {
    var hi, lo := s[2 * i], s[2 * i + 1];
    assert IsLowerHexChar(hi) && IsLowerHexChar(lo);
    assert b[i] == 16 * HexValue(hi) + HexValue(lo);
    DigitsOfByte(hi, lo);
  }

  /** The two digits of a byte are the two lower-case digits it was read from. */
  lemma DigitsOfByte(hi: char, lo: char)
    requires IsLowerHexChar(hi) && IsLowerHexChar(lo)
    ensures var b := 16 * HexValue(hi) + HexValue(lo);
      HexDigit(b / 16) == hi && HexDigit(b % 16) == lo
  {
    SplitByte(HexValue(hi), HexValue(lo));
    HexDigitOfValue(hi);
    HexDigitOfValue(lo);
  }

  /** `ObjectId(text)`: `None` stands for the `InvalidId` exception. */
  function ParseOid(text: string): (r: Option<Oid>)
    ensures r.Some? <==> |text| == OidTextLength && AllHex(text)
    ensures r.Some? ==> forall i | 0 <= i < |r.value| ::
      r.value[i] == 16 * HexValue(text[2 * i]) + HexValue(text[2 * i + 1])
  {
    if |text| != OidTextLength then None
    else
      match DecodeHex(text)
      case None => None
      case Some(bytes) => Some(bytes)
  }

  /** `str(oid)`: always 24 lower-case hexadecimal digits. */
  function FormatOid(o: Oid): (text: string)
    ensures |text| == OidTextLength
    ensures AllLowerHex(text)
  {
    EncodeHex(o)
  }

  /** The text an insert hands back always parses back to the inserted id. */
  lemma ParseFormatOid(o: Oid)
    ensures ParseOid(FormatOid(o)) == Some(o)
  {
    DecodeEncodeHex(o);
  }

  /** A valid lower-case id text is exactly the formatted form of its id, so
      two distinct lower-case texts never name the same record. */
  lemma FormatParseOid(text: string)
    requires AllLowerHex(text)
    requires ParseOid(text).Some?
    ensures FormatOid(ParseOid(text).value) == text
  {
    EncodeDecodeHex(text, ParseOid(text).value);
  }

  /** The lower-case form of a character; other characters are kept. */
  function LowerChar(c: char): (l: char)
    ensures IsHexChar(c) ==> IsLowerHexChar(l) && HexValue(l) == HexValue(c)
    ensures !('A' <= c <= 'Z') ==> l == c
  {
    if 'A' <= c <= 'Z' then (c as int - 'A' as int + 'a' as int) as char else c
  }

  function Lower(text: string): (l: string)
    ensures |l| == |text|
    ensures forall i | 0 <= i < |text| :: l[i] == LowerChar(text[i])
  {
    seq(|text|, i requires 0 <= i < |text| => LowerChar(text[i]))
  }

  /** `ObjectId(text)` does not look at case: a text and its lower-case form
      are accepted together and name the same id. */
  lemma ParseOidIgnoresCase(text: string)
    ensures ParseOid(Lower(text)) == ParseOid(text)
  {
    var l := Lower(text);
    assert AllHex(l) <==> AllHex(text) by {
      if AllHex(text) {
        forall i | 0 <= i < |l| ensures IsHexChar(l[i]) {
          assert IsHexChar(text[i]);
        }
      }
      if AllHex(l) {
        forall i | 0 <= i < |text| ensures IsHexChar(text[i]) {
          assert IsHexChar(l[i]);
          assert 'A' <= text[i] <= 'Z' ==> 'a' <= l[i] <= 'f';
        }
      }
    }
    var a, b := ParseOid(l), ParseOid(text);
    if a.Some? {
      forall i | 0 <= i < 12 ensures a.value[i] == b.value[i] {
        assert l[2 * i] == LowerChar(text[2 * i]);
        assert l[2 * i + 1] == LowerChar(text[2 * i + 1]);
      }
      assert a.value == b.value;
    }
  }
}

=== FILE: records.dfy ===
/** The documents the store keeps: incidents, responders, hospitals and
    responses.

    The store functions write plain dictionaries and never apply the schema
    defaults, so a field a document may lack is an `Option` (`None` stands for
    both an absent field and a null, which the store's equality and range
    filters treat alike). Coordinates are carried but never interpreted: the
    distance of each record from a query point is an input of the search. */
module Records {
  import opened Wrappers

  /** BSON datetimes: milliseconds since the epoch. */
  type Timestamp = int

  datatype Location = Location(lat: real, lng: real)

  /** Incident status values the store functions look for. */
  const IncidentActive := "active"

  /** Responder status values the store functions write or count. */
  const ResponderAvailable := "available"
  const ResponderEnRoute := "en_route"
  const ResponderBusy := "busy"

  /** The only hospital status the search accepts. */
  const HospitalOperational := "operational"

  /** The status of the response created by a dispatch. */
  const ResponseDispatched := "dispatched"

  datatype Incident = Incident(
    callerName: Option<string>,
    callerPhone: Option<string>,
    incidentType: Option<string>,
    symptoms: Option<string>,
    summary: Option<string>,
    location: Location,
    address: Option<string>,
    priority: Option<string>,
    status: Option<string>,
    createdAt: Timestamp,
    updatedAt: Timestamp,
    assignedResponderId: Option<string>)

  datatype Responder = Responder(
    name: string,
    phone: string,
    location: Location,
    status: Option<string>,
    vehicleType: Option<string>,
    skills: seq<string>,
    etaToIncident: Option<int>)

  /** The statuses the dashboard counts as available, and as busy; the
      responder search's `available_only` asks for the first. */
  const AvailableStatuses: set<Option<string>> := {Some(ResponderAvailable)}
  const BusyStatuses: set<Option<string>> := {Some(ResponderEnRoute), Some(ResponderBusy)}

  predicate IsAvailable(r: Responder) {
    r.status in AvailableStatuses
  }

  predicate IsBusy(r: Responder) {
    r.status in BusyStatuses
  }

  /** The two columns never share a unit. */
  lemma AvailableNotBusy(r: Responder)
    ensures !(IsAvailable(r) && IsBusy(r))
  {
  }

  datatype Hospital = Hospital(
    name: string,
    location: Location,
    address: string,
    bedsAvailable: Option<int>,
    specialties: seq<string>,
    contactPhone: string,
    status: Option<string>)

  datatype Response = Response(
    incidentId: string,
    responderId: string,
    eta: Option<int>,
    status: Option<string>,
    createdAt: Timestamp,
    notes: Option<string>)

  /** The `update_data` of an incident update: `None` leaves a field alone,
      `Some(v)` overwrites it with `v` (which may itself be a null). */
  datatype IncidentPatch = IncidentPatch(
    callerName: Option<Option<string>>,
    callerPhone: Option<Option<string>>,
    incidentType: Option<Option<string>>,
    symptoms: Option<Option<string>>,
    summary: Option<Option<string>>,
    location: Option<Location>,
    address: Option<Option<string>>,
    priority: Option<Option<string>>,
    status: Option<Option<string>>,
    assignedResponderId: Option<Option<string>>)

  /** The field a `$set` leaves behind: the new value when one is given. */
  function Overwrite<T>(given: Option<T>, current: T): T {
    if given.Some? then given.value else current
  }

  /** The `$set` of an incident update: the patched fields plus `updated_at`. */
  function ApplyPatch(inc: Incident, p: IncidentPatch, now: Timestamp): (r: Incident)
    ensures r.createdAt == inc.createdAt
    ensures r.updatedAt == now
    ensures p.callerName.None? ==> r.callerName == inc.callerName
    ensures p.callerName.Some? ==> r.callerName == p.callerName.value
    ensures p.callerPhone.None? ==> r.callerPhone == inc.callerPhone
    ensures p.callerPhone.Some? ==> r.callerPhone == p.callerPhone.value
    ensures p.incidentType.None? ==> r.incidentType == inc.incidentType
    ensures p.incidentType.Some? ==> r.incidentType == p.incidentType.value
    ensures p.symptoms.None? ==> r.symptoms == inc.symptoms
    ensures p.symptoms.Some? ==> r.symptoms == p.symptoms.value
    ensures p.summary.None? ==> r.summary == inc.summary
    ensures p.summary.Some? ==> r.summary == p.summary.value
    ensures p.location.None? ==> r.location == inc.location
    ensures p.location.Some? ==> r.location == p.location.value
    ensures p.address.None? ==> r.address == inc.address
    ensures p.address.Some? ==> r.address == p.address.value
    ensures p.priority.None? ==> r.priority == inc.priority
    ensures p.priority.Some? ==> r.priority == p.priority.value
    ensures p.status.None? ==> r.status == inc.status
    ensures p.status.Some? ==> r.status == p.status.value
    ensures p.assignedResponderId.None? ==> r.assignedResponderId == inc.assignedResponderId
    ensures p.assignedResponderId.Some? ==> r.assignedResponderId == p.assignedResponderId.value
  {
    Incident(
      Overwrite(p.callerName, inc.callerName),
      Overwrite(p.callerPhone, inc.callerPhone),
      Overwrite(p.incidentType, inc.incidentType),
      Overwrite(p.symptoms, inc.symptoms),
      Overwrite(p.summary, inc.summary),
      Overwrite(p.location, inc.location),
      Overwrite(p.address, inc.address),
      Overwrite(p.priority, inc.priority),
      Overwrite(p.status, inc.status),
      inc.createdAt,
      now,
      Overwrite(p.assignedResponderId, inc.assignedResponderId))
  }

  /** The patch that sets nothing. */
  const EmptyPatch := IncidentPatch(None, None, None, None, None, None, None, None, None, None)

  /** An empty patch still refreshes `updated_at` and changes nothing else. */
  lemma EmptyPatchOnlyTouchesUpdatedAt(inc: Incident, now: Timestamp)
    ensures ApplyPatch(inc, EmptyPatch, now) == inc.(updatedAt := now)
  {
  }

  /** Applying the same patch twice at the same instant is the same as once. */
  lemma ApplyPatchIdempotent(inc: Incident, p: IncidentPatch, now: Timestamp)
    ensures ApplyPatch(ApplyPatch(inc, p, now), p, now) == ApplyPatch(inc, p, now)
  {
  }

  /** An optional text argument of a search as an `if` tests it: a missing
      or empty text adds no condition. */
  predicate Given(s: Option<string>) {
    s.Some? && s.value != ""
  }
}

=== FILE: responders.dfy ===
/** Responder units: the nearest-unit search with its ETA estimate, and the
    status update. */
module Responders {
  import opened Wrappers
  import opened ObjectIds
  import opened Records
  import opened Tables
  import opened Store
  import opened GeoNear

  /** Defaults of the search's keyword arguments. */
  const DefaultRadiusKm: real := 10.0
  const DefaultMaxResults: int := 10
  const DefaultAvailableOnly: bool := true

  /** The assumed average speed of a responding unit. */
  const AverageSpeedKmh: nat := 40
  const MetresPerKm: nat := 1000
  const MinutesPerHour: nat := 60

  /** A search hit: the unit, its distance, and the derived `distance_km`
      and `eta_minutes`. */
  datatype ResponderMatch = ResponderMatch(
    id: Oid,
    responder: Responder,
    distanceMetres: nat,
    distanceKm: real,
    etaMinutes: nat)

  /** The `$match` conditions of the search. */
  predicate ResponderQualifies(r: Responder, vehicleType: Option<string>, availableOnly: bool) {
    && (availableOnly ==> IsAvailable(r))
    && (Given(vehicleType) ==> r.vehicleType == vehicleType)
  }

  /** Whole minutes to cover `metres` at the average speed, rounded down. */
  function EtaMinutes(metres: nat): (m: nat)
    ensures m * (MetresPerKm * AverageSpeedKmh) <= metres * MinutesPerHour
    ensures metres * MinutesPerHour < (m + 1) * (MetresPerKm * AverageSpeedKmh)
  {
    (metres * MinutesPerHour) / (MetresPerKm * AverageSpeedKmh)
  }

  /** A farther unit never gets a smaller ETA. */
  lemma EtaMonotone(a: nat, b: nat)
    requires a <= b
    ensures EtaMinutes(a) <= EtaMinutes(b)
  {
  }

  /** A unit within the search radius is at most one and a half minutes per
      kilometre of radius away: 60 minutes per hour over 40 km/h. */
  lemma EtaWithinRadius(metres: nat, radiusKm: real)
    requires metres as real <= radiusKm * 1000.0
    ensures EtaMinutes(metres) as real <= 1.5 * radiusKm
  {
    var e := EtaMinutes(metres);
    assert e * 40000 <= metres * 60;
    assert (e * 40000) as real <= (metres * 60) as real;
    assert (e as real) * 40000.0 <= (metres as real) * 60.0;
    assert (metres as real) * 60.0 <= radiusKm * 60000.0;
  }

  function ToResponderMatch(h: Hit<Responder>): (m: ResponderMatch)
    ensures m.id == h.id && m.responder == h.doc && m.distanceMetres == h.metres
    ensures m.distanceKm * 1000.0 == h.metres as real
    ensures m.etaMinutes == EtaMinutes(h.metres)
  {
    ResponderMatch(h.id, h.doc, h.metres, h.metres as real / 1000.0, EtaMinutes(h.metres))
  }

  /** The pipeline's records before they are annotated: within the radius,
      matching the conditions, nearest first, at most `maxResults`. */
  function ResponderHits(db: Db, distance: map<Oid, nat>, radiusKm: real, vehicleType: Option<string>,
                         maxResults: nat, availableOnly: bool): (hits: seq<Hit<Responder>>)
    ensures |hits| <= maxResults
    ensures SortedByDistance(hits)
    ensures DistinctHits(hits)
    ensures forall h | h in hits ::
      && h.id in db.responders.rows && h.id in distance && h.metres == distance[h.id]
      && h.doc == db.responders.rows[h.id] && h.metres as real <= radiusKm * 1000.0
      && ResponderQualifies(h.doc, vehicleType, availableOnly)
  {
    var near := GeoNearStage(db.responders, distance, radiusKm * 1000.0);
    var matched := MatchStage(near, (x: Responder) => ResponderQualifies(x, vehicleType, availableOnly));
    assert DistinctHits(matched);
    var hits := LimitStage(matched, maxResults);
    assert forall h | h in hits :: h in matched;
    hits
  }

  /** The pipeline's records with `distance_km` and `eta_minutes` added. */
  function Annotate(hits: seq<Hit<Responder>>): (r: seq<ResponderMatch>)
    ensures |r| == |hits|
    ensures forall i | 0 <= i < |r| :: r[i] == ToResponderMatch(hits[i])
    ensures forall i | 0 <= i < |r| ::
      && r[i].id == hits[i].id && r[i].responder == hits[i].doc && r[i].distanceMetres == hits[i].metres
      && r[i].distanceKm * 1000.0 == hits[i].metres as real
      && r[i].etaMinutes == EtaMinutes(hits[i].metres)
    ensures SortedByDistance(hits) ==> forall i, j | 0 <= i < j < |r| :: r[i].distanceMetres <= r[j].distanceMetres
    ensures DistinctHits(hits) ==> forall i, j | 0 <= i < j < |r| :: r[i].id != r[j].id
  {
    seq(|hits|, i requires 0 <= i < |hits| => ToResponderMatch(hits[i]))
  }

  /** `get_nearby_responders`. The query point is represented by `distance`,
      the distance in metres from it of every unit with a location. A
      negative `max_results` is refused by the cursor, one beyond 64 bits by
      the encoder of the pipeline, a negative radius and then a zero limit
      by the server. */
  function NearbyResponders(db: Db, distance: map<Oid, nat>, radiusKm: real, vehicleType: Option<string>,
                            maxResults: int, availableOnly: bool): (r: Result<seq<ResponderMatch>, DbError>)
    ensures maxResults < 0 ==> r == Err(NegativeLength(maxResults))
    ensures maxResults > MaxInt64 ==> r == Err(IntOverflow(maxResults))
    ensures 0 <= maxResults <= MaxInt64 && radiusKm < 0.0 ==> r == Err(NegativeMaxDistance)
    ensures maxResults == 0 && radiusKm >= 0.0 ==> r == Err(LimitNotPositive(0))
    ensures r.Ok? <==> 0 < maxResults <= MaxInt64 && radiusKm >= 0.0
    ensures r.Ok? ==> |r.value| <= maxResults
    ensures r.Ok? ==> forall i | 0 <= i < |r.value| ::
      && r.value[i].id in db.responders.rows
      && r.value[i].responder == db.responders.rows[r.value[i].id]
      && r.value[i].id in distance
      && r.value[i].distanceMetres == distance[r.value[i].id]
      && r.value[i].distanceMetres as real <= radiusKm * 1000.0
      && ResponderQualifies(r.value[i].responder, vehicleType, availableOnly)
      && r.value[i].distanceKm * 1000.0 == r.value[i].distanceMetres as real
      && r.value[i].etaMinutes == EtaMinutes(r.value[i].distanceMetres)
    ensures r.Ok? ==> forall i, j | 0 <= i < j < |r.value| ::
      r.value[i].distanceMetres <= r.value[j].distanceMetres
    ensures r.Ok? ==> forall i, j | 0 <= i < j < |r.value| :: r.value[i].id != r.value[j].id
  {
    if maxResults < 0 then Err(NegativeLength(maxResults))
    else if !FitsInt64(maxResults) then Err(IntOverflow(maxResults))
    else if radiusKm < 0.0 then Err(NegativeMaxDistance)
    else if maxResults == 0 then Err(LimitNotPositive(maxResults))
    else
      AnnotatedHits(db, distance, radiusKm, vehicleType, maxResults, availableOnly);
      Ok(Annotate(ResponderHits(db, distance, radiusKm, vehicleType, maxResults, availableOnly)))
  }

  /** The annotated pipeline records, position by position. */
  lemma AnnotatedHits(db: Db, distance: map<Oid, nat>, radiusKm: real, vehicleType: Option<string>,
                      maxResults: nat, availableOnly: bool)
    ensures var r := Annotate(ResponderHits(db, distance, radiusKm, vehicleType, maxResults, availableOnly));
      && |r| <= maxResults
      && (forall i | 0 <= i < |r| ::
            && r[i].id in db.responders.rows
            && r[i].responder == db.responders.rows[r[i].id]
            && r[i].id in distance
            && r[i].distanceMetres == distance[r[i].id]
            && r[i].distanceMetres as real <= radiusKm * 1000.0
            && ResponderQualifies(r[i].responder, vehicleType, availableOnly)
            && r[i].distanceKm * 1000.0 == r[i].distanceMetres as real
            && r[i].etaMinutes == EtaMinutes(r[i].distanceMetres))
      && (forall i, j | 0 <= i < j < |r| :: r[i].distanceMetres <= r[j].distanceMetres)
      && (forall i, j | 0 <= i < j < |r| :: r[i].id != r[j].id)
  {
    var hits := ResponderHits(db, distance, radiusKm, vehicleType, maxResults, availableOnly);
    assert forall i | 0 <= i < |hits| :: hits[i] in hits;
  }

  /** No qualifying unit within the radius is passed over for a farther one:
      a qualifying unit left out of a successful search is left out only
      because the result is full, and every unit returned is at most as far. */
  lemma NearbyRespondersNearestFirst(db: Db, distance: map<Oid, nat>, radiusKm: real, vehicleType: Option<string>,
                                     maxResults: int, availableOnly: bool, id: Oid)
    requires 0 < maxResults <= MaxInt64 && radiusKm >= 0.0
    requires id in db.responders.rows && id in distance
    requires distance[id] as real <= radiusKm * 1000.0
    requires ResponderQualifies(db.responders.rows[id], vehicleType, availableOnly)
    ensures var found := NearbyResponders(db, distance, radiusKm, vehicleType, maxResults, availableOnly).value;
      (forall i | 0 <= i < |found| :: found[i].id != id) ==>
        && |found| == maxResults
        && forall i | 0 <= i < |found| :: found[i].distanceMetres <= distance[id]
  {
    var found := NearbyResponders(db, distance, radiusKm, vehicleType, maxResults, availableOnly).value;
    var hits := ResponderHits(db, distance, radiusKm, vehicleType, maxResults, availableOnly);
    assert found == Annotate(hits);
    var x := Hit(id, db.responders.rows[id], distance[id]);
    if x in hits {
      var k :| 0 <= k < |hits| && hits[k] == x;
      assert found[k].id == id;
    } else {
      HitsNearestFirst(db, distance, radiusKm, vehicleType, maxResults, availableOnly, x);
      forall i | 0 <= i < |found|
        ensures found[i].distanceMetres <= distance[id]
      {
        assert hits[i] in hits;
      }
    }
  }

  lemma HitsNearestFirst(db: Db, distance: map<Oid, nat>, radiusKm: real, vehicleType: Option<string>,
                         maxResults: nat, availableOnly: bool, x: Hit<Responder>)
    requires x.id in db.responders.rows && x.id in distance
    requires x == Hit(x.id, db.responders.rows[x.id], distance[x.id])
    requires x.metres as real <= radiusKm * 1000.0
    requires ResponderQualifies(x.doc, vehicleType, availableOnly)
    ensures var hits := ResponderHits(db, distance, radiusKm, vehicleType, maxResults, availableOnly);
      x !in hits ==> |hits| == maxResults && forall h | h in hits :: h.metres <= x.metres
  {
    var p := (r: Responder) => ResponderQualifies(r, vehicleType, availableOnly);
    var near := GeoNearStage(db.responders, distance, radiusKm * 1000.0);
    var matched := MatchStage(near, p);
    assert x in near;
    assert x in matched;
    if x !in LimitStage(matched, maxResults) {
      LimitKeepsNearest(matched, maxResults, x);
    }
  }

  /** The search with its default arguments always runs. */
  lemma DefaultSearchSucceeds(db: Db, distance: map<Oid, nat>, vehicleType: Option<string>)
    ensures NearbyResponders(db, distance, DefaultRadiusKm, vehicleType, DefaultMaxResults, DefaultAvailableOnly).Ok?
  {
  }

  /** `update_responder_status`: sets the status of the unit the id names
      and hands back the unit as stored afterwards, or nothing if no unit has
      that id. Any text is accepted as a status. */
  function UpdateResponderStatus(db: Db, responderId: string, status: string)
    : (o: Outcome<Option<Stored<Responder>>>)
    ensures ParseOid(responderId).None? ==> o == Outcome(db, Err(InvalidId(responderId)))
    ensures ParseOid(responderId).Some? ==> o.result.Ok?
    ensures o.db.responders.rows.Keys == db.responders.rows.Keys
    ensures o.db.responders.order == db.responders.order
    ensures forall id | id in db.responders.rows ::
      o.db.responders.rows[id] ==
        if Some(id) == ParseOid(responderId) then db.responders.rows[id].(status := Some(status))
        else db.responders.rows[id]
    ensures o.result.Ok? ==>
      (o.result.value.Some? <==> ParseOid(responderId).value in db.responders.rows)
    ensures o.result.Ok? && o.result.value.Some? ==>
      && o.result.value.value.id == ParseOid(responderId).value
      && o.result.value.value.doc.status == Some(status)
      && o.result.value.value.doc == o.db.responders.rows[o.result.value.value.id]
    ensures o.db.incidents == db.incidents && o.db.hospitals == db.hospitals
    ensures o.db.responses == db.responses
  {
    match ToOid(responderId)
    case Err(e) => Outcome(db, Err(e))
    case Ok(id) =>
      var responders := Update(db.responders, id, (r: Responder) => r.(status := Some(status)));
      var found := if id in responders.rows then Some(Stored(id, responders.rows[id])) else None;
      Outcome(db.(responders := responders), Ok(found))
  }
}

=== FILE: responses.dfy ===
/** Response records, which link an incident to the unit sent to it. */
module Responses {
  import opened Wrappers
  import opened ObjectIds
  import opened Records
  import opened Tables
  import opened Store

  /** The response's integer field, the ETA, fits in a BSON integer. */
  predicate Encodable(data: Response) {
    data.eta.None? || FitsInt64(data.eta.value)
  }

  /** `create_response`: stores `data` with `created_at` set to `now` under
      the fresh id `newId` and hands back the stored record. The document is
      encoded before it is sent, so an ETA outside 64 bits raises before the
      store can refuse a reused id. */
  function CreateResponse(db: Db, data: Response, now: Timestamp, newId: Oid): (o: Outcome<Stored<Response>>)
    ensures o.result.Ok? <==> Encodable(data) && newId !in db.responses.rows
    ensures o.result.Err? ==> o.db == db
    ensures !Encodable(data) ==> o.result == Err(IntOverflow(data.eta.value))
    ensures Encodable(data) && newId in db.responses.rows ==> o.result == Err(DuplicateKey(newId))
    ensures o.result.Ok? ==> o.result.value == Stored(newId, data.(createdAt := now))
    ensures o.result.Ok? ==> o.db.responses.rows.Keys == db.responses.rows.Keys + {newId}
    ensures o.result.Ok? ==> o.db.responses.rows[newId] == o.result.value.doc
    ensures o.result.Ok? ==> o.db.responses.order == db.responses.order + [newId]
    ensures forall id | id in db.responses.rows :: o.db.responses.rows[id] == db.responses.rows[id]
    ensures o.db.incidents == db.incidents && o.db.responders == db.responders
    ensures o.db.hospitals == db.hospitals
  {
    if !Encodable(data) then
      Outcome(db, Err(IntOverflow(data.eta.value)))
    else if newId in db.responses.rows then
      Outcome(db, Err(DuplicateKey(newId)))
    else
      var doc := data.(createdAt := now);
      Outcome(db.(responses := Insert(db.responses, newId, doc)), Ok(Stored(newId, doc)))
  }

  /** `update_response_status`: sets the status of the response the id names
      and hands it back as stored afterwards, or nothing if there is none. */
  function UpdateResponseStatus(db: Db, responseId: string, status: string)
    : (o: Outcome<Option<Stored<Response>>>)
    ensures ParseOid(responseId).None? ==> o == Outcome(db, Err(InvalidId(responseId)))
    ensures ParseOid(responseId).Some? ==> o.result.Ok?
    ensures o.db.responses.rows.Keys == db.responses.rows.Keys
    ensures o.db.responses.order == db.responses.order
    ensures forall id | id in db.responses.rows ::
      o.db.responses.rows[id] ==
        if Some(id) == ParseOid(responseId) then db.responses.rows[id].(status := Some(status))
        else db.responses.rows[id]
    ensures o.result.Ok? ==>
      (o.result.value.Some? <==> ParseOid(responseId).value in db.responses.rows)
    ensures o.result.Ok? && o.result.value.Some? ==>
      && o.result.value.value.id == ParseOid(responseId).value
      && o.result.value.value.doc.status == Some(status)
      && o.result.value.value.doc == o.db.responses.rows[o.result.value.value.id]
    ensures o.db.incidents == db.incidents && o.db.responders == db.responders
    ensures o.db.hospitals == db.hospitals
  {
    match ToOid(responseId)
    case Err(e) => Outcome(db, Err(e))
    case Ok(id) =>
      var responses := Update(db.responses, id, (r: Response) => r.(status := Some(status)));
      var found := if id in responses.rows then Some(Stored(id, responses.rows[id])) else None;
      Outcome(db.(responses := responses), Ok(found))
  }

  /** The responses among `order` whose `incident_id` is exactly the given
      text, in scan order. */
  function ResponsesFor(rows: map<Oid, Response>, order: seq<Oid>, incidentId: string)
    : (r: seq<Stored<Response>>)
    requires forall i | 0 <= i < |order| :: order[i] in rows
    ensures forall k | 0 <= k < |r| ::
      && r[k].id in order && r[k].doc == rows[r[k].id] && r[k].doc.incidentId == incidentId
    ensures forall i | 0 <= i < |order| && rows[order[i]].incidentId == incidentId ::
      Stored(order[i], rows[order[i]]) in r
    ensures (forall i, j | 0 <= i < j < |order| :: order[i] != order[j]) ==> DistinctIds(r)
    decreases |order|
  {
    if |order| == 0 then []
    else
      var prefix := order[..|order| - 1];
      var rest := ResponsesFor(rows, prefix, incidentId);
      var last := order[|order| - 1];
      assert forall i | 0 <= i < |order| - 1 :: order[i] == prefix[i];
      if rows[last].incidentId == incidentId then
        var x := Stored(last, rows[last]);
        assert (forall i, j | 0 <= i < j < |order| :: order[i] != order[j]) ==> DistinctIds(rest + [x]) by {
          if forall i, j | 0 <= i < j < |order| :: order[i] != order[j] {
            forall k | 0 <= k < |rest| ensures rest[k].id != last {
              var i :| 0 <= i < |prefix| && prefix[i] == rest[k].id;
            }
            SnocDistinct(rest, x);
          }
        }
        rest + [x]
      else rest
  }

  /** `get_responses_by_incident`: every response filed against the incident
      id text, compared as text (no ObjectId conversion, so no error). */
  function ResponsesByIncident(db: Db, incidentId: string): (r: seq<Stored<Response>>)
    ensures forall k | 0 <= k < |r| ::
      && r[k].id in db.responses.rows && r[k].doc == db.responses.rows[r[k].id]
      && r[k].doc.incidentId == incidentId
    ensures forall id | id in db.responses.rows && db.responses.rows[id].incidentId == incidentId ::
      Stored(id, db.responses.rows[id]) in r
    ensures DistinctIds(r)
  {
    ResponsesFor(db.responses.rows, db.responses.order, incidentId)
  }

  /** Filing a response appends it to the incident's list and leaves every
      other incident's list as it was; a refused filing changes no list. */
  lemma ResponsesAfterCreate(db: Db, data: Response, now: Timestamp, newId: Oid, incidentId: string)
    ensures var o := CreateResponse(db, data, now, newId);
      ResponsesByIncident(o.db, incidentId) ==
        if o.result.Ok? && data.incidentId == incidentId then
          ResponsesByIncident(db, incidentId) + [Stored(newId, data.(createdAt := now))]
        else ResponsesByIncident(db, incidentId)
  {
    var o := CreateResponse(db, data, now, newId);
    if o.result.Ok? {
      var rows := o.db.responses.rows;
      var order := o.db.responses.order;
      assert order[..|order| - 1] == db.responses.order;
      ResponsesForFrame(db.responses.rows, rows, db.responses.order, incidentId);
    }
  }

  /** The filter depends only on the records listed in `order`. */
  lemma {:induction false} ResponsesForFrame(rows: map<Oid, Response>, rows': map<Oid, Response>,
                                              order: seq<Oid>, incidentId: string)
    requires forall i | 0 <= i < |order| :: order[i] in rows && order[i] in rows'
    requires forall i | 0 <= i < |order| :: rows'[order[i]] == rows[order[i]]
    ensures ResponsesFor(rows', order, incidentId) == ResponsesFor(rows, order, incidentId)
    decreases |order|
  {
    if |order| > 0 {
      var prefix := order[..|order| - 1];
      assert forall i | 0 <= i < |prefix| :: prefix[i] == order[i];
      ResponsesForFrame(rows, rows', prefix, incidentId);
    }
  }

  /** Changing a response's status keeps every incident's list in place:
      the same responses in the same order, the changed one carrying its new
      status and the others as they were. */
  lemma ResponsesAfterStatusUpdate(db: Db, responseId: string, status: string, incidentId: string)
    ensures var before := ResponsesByIncident(db, incidentId);
      var after := ResponsesByIncident(UpdateResponseStatus(db, responseId, status).db, incidentId);
      && |after| == |before|
      && forall k | 0 <= k < |after| ::
           && after[k].id == before[k].id
           && after[k].doc ==
                if Some(before[k].id) == ParseOid(responseId) then before[k].doc.(status := Some(status))
                else before[k].doc
  {
    var o := UpdateResponseStatus(db, responseId, status);
    if ParseOid(responseId).Some? {
      ResponsesForStatus(db.responses.rows, o.db.responses.rows, db.responses.order, incidentId,
                         ParseOid(responseId).value, status);
    }
  }

  /** The filter over a table in which one response's status, and nothing
      else, has changed. */
  lemma {:induction false} ResponsesForStatus(rows: map<Oid, Response>, rows': map<Oid, Response>,
                                               order: seq<Oid>, incidentId: string, target: Oid, status: string)
    requires forall i | 0 <= i < |order| :: order[i] in rows && order[i] in rows'
    requires forall i | 0 <= i < |order| ::
      rows'[order[i]] == if order[i] == target then rows[order[i]].(status := Some(status)) else rows[order[i]]
    ensures var before := ResponsesFor(rows, order, incidentId);
      var after := ResponsesFor(rows', order, incidentId);
      && |after| == |before|
      && forall k | 0 <= k < |after| ::
           && after[k].id == before[k].id
           && after[k].doc == if before[k].id == target then before[k].doc.(status := Some(status)) else before[k].doc
    decreases |order|
  {
    if |order| > 0 {
      var prefix := order[..|order| - 1];
      assert forall i | 0 <= i < |prefix| :: prefix[i] == order[i];
      ResponsesForStatus(rows, rows', prefix, incidentId, target, status);
      var last := order[|order| - 1];
      assert rows'[last].incidentId == rows[last].incidentId;
      var rest := ResponsesFor(rows, prefix, incidentId);
      var rest' := ResponsesFor(rows', prefix, incidentId);
      if rows[last].incidentId == incidentId {
        var before := rest + [Stored(last, rows[last])];
        var after := rest' + [Stored(last, rows'[last])];
        assert ResponsesFor(rows, order, incidentId) == before;
        assert ResponsesFor(rows', order, incidentId) == after;
        forall k | 0 <= k < |after|
          ensures after[k].id == before[k].id
          ensures after[k].doc == if before[k].id == target then before[k].doc.(status := Some(status)) else before[k].doc
        {
          if k < |rest| {
            assert after[k] == rest'[k] && before[k] == rest[k];
          }
        }
      }
    }
  }
}

=== FILE: store.dfy ===
/** The database the store functions share, the exceptions they raise, and
    the shape of a call's outcome. */
module Store {
  import opened Wrappers
  import opened ObjectIds
  import opened Records
  import opened Tables

  /** The four collections of the emergency database. */
  datatype Db = Db(
    incidents: Table<Incident>,
    responders: Table<Responder>,
    hospitals: Table<Hospital>,
    responses: Table<Response>)

  /** The exceptions a store function can raise. */
  datatype DbError =
    | InvalidId(text: string)          // `ObjectId(text)` rejects the text
    | DuplicateKey(id: Oid)            // an insert reuses an id already stored
    | NegativeLength(length: int)      // `to_list(length=n)` with `n < 0`
    | NegativeMaxDistance              // `$geoNear` with a negative `maxDistance`
    | LimitNotPositive(limit: int)     // `$limit` of zero
    | IntOverflow(value: int)          // BSON encoding of an int outside 64 bits

  /** BSON stores integers in at most eight bytes: the driver refuses to
      encode any other value and nothing is sent to the server. */
  const MinInt64: int := -0x8000_0000_0000_0000
  const MaxInt64: int := 0x7FFF_FFFF_FFFF_FFFF

  predicate FitsInt64(n: int) {
    MinInt64 <= n <= MaxInt64
  }

  /** A record together with the id it is stored under. */
  datatype Stored<T> = Stored(id: Oid, doc: T)

  /** No record is listed twice: the ids of a list are pairwise distinct. */
  predicate DistinctIds<T>(r: seq<Stored<T>>) {
    forall k, l | 0 <= k < l < |r| :: r[k].id != r[l].id
  }

  /** A record whose id the list does not hold can be appended to it. */
  lemma SnocDistinct<T>(r: seq<Stored<T>>, x: Stored<T>)
    requires DistinctIds(r)
    requires forall k | 0 <= k < |r| :: r[k].id != x.id
    ensures DistinctIds(r + [x])
  {
    var r' := r + [x];
    forall k, l | 0 <= k < l < |r'| ensures r'[k].id != r'[l].id {
      assert r'[k] == r[k];
      if l < |r| {
        assert r'[l] == r[l];
      }
    }
  }

  /** The database after a call, and what the call returned or raised.
      Writes made before an exception stay in the database. */
  datatype Outcome<T> = Outcome(db: Db, result: Result<T, DbError>)

  /** `ObjectId(text)` as a result. */
  function ToOid(text: string): (r: Result<Oid, DbError>)
    ensures r.Ok? <==> ParseOid(text).Some?
    ensures r.Ok? ==> r.value == ParseOid(text).value
    ensures r.Err? ==> r.error == InvalidId(text)
  {
    match ParseOid(text)
    case Some(id) => Ok(id)
    case None => Err(InvalidId(text))
  }
}

=== FILE: tables.dfy ===
/** A collection of the document store: records keyed by ObjectId, plus the
    order in which they were inserted, which is the order an unsorted scan of
    the collection yields them in. */
module Tables {
  import opened Wrappers
  import opened ObjectIds

  datatype TableData<T> = TableData(rows: map<Oid, T>, order: seq<Oid>) {
    /** Every stored id appears exactly once in the scan order. */
    predicate WellFormed() {
      && (forall i, j | 0 <= i < j < |order| :: order[i] != order[j])
      && (forall i | 0 <= i < |order| :: order[i] in rows)
      && (forall id | id in rows :: id in order)
    }
  }

  type Table<T> = t: TableData<T> | t.WellFormed() witness TableData(map[], [])

  /** `find_one({"_id": id})`. */
  function Find<T>(t: Table<T>, id: Oid): (r: Option<T>)
    ensures r.Some? <==> id in t.rows
    ensures r.Some? ==> r.value == t.rows[id]
  {
    if id in t.rows then Some(t.rows[id]) else None
  }

  /** `insert_one` of a record under an id not yet in use: the new record is
      scanned after all the others. */
  function Insert<T>(t: Table<T>, id: Oid, v: T): (r: Table<T>)
    requires id !in t.rows
    ensures r.rows == t.rows[id := v]
    ensures r.order == t.order + [id]
  {
    var r := TableData(t.rows[id := v], t.order + [id]);
    assert forall i | 0 <= i < |t.order| :: t.order[i] != id;
    r
  }

  /** `update_one({"_id": id}, ...)`: replaces the record stored under `id`
      with `f` of it; a missing id matches nothing and changes nothing. The
      scan order is untouched. */
  function Update<T>(t: Table<T>, id: Oid, f: T -> T): (r: Table<T>)
    ensures r.order == t.order
    ensures r.rows.Keys == t.rows.Keys
    ensures id in t.rows ==> r.rows == t.rows[id := f(t.rows[id])]
    ensures forall other | other in t.rows && other != id :: r.rows[other] == t.rows[other]
    ensures id !in t.rows ==> r == t
  {
    if id in t.rows then TableData(t.rows[id := f(t.rows[id])], t.order) else t
  }
}

=== FILE: wrappers.dfy ===
/** Optional values and error-carrying results, as used throughout the store model. */
module Wrappers {

  /** A value that may be absent: a missing document field, a `find_one` that matched nothing. */
  datatype Option<+T> = None | Some(value: T)

  /** The value a call returns, or the exception it raises. */
  datatype Result<+T, +E> = Ok(value: T) | Err(error: E)
}
